=== FILE: README.md ===
# Tenant table provisioning: a Dafny model of the schema-to-DDL planner

The backend's `POST /api/deployTables` route turns a tenant's JSON schema into
PostgreSQL tables. Given a slug and `schema.tables`, `createTablesWithKnex`
works in two passes:

1. **Pass 1** creates each table as `<prefix>_<table.name>`, where the prefix
   is the slug with every `-` replaced by `_`. Every table gets an `id` uuid
   primary key defaulting to `gen_random_uuid()`, `created_at` and
   `updated_at` timestamps defaulting to now, and one typed column per field.
   A table that already exists is skipped.
2. **Pass 2** adds a foreign key for each field whose relation type is
   `belongsTo`. The key is named `<physical table>_<field>_fkey`, references
   the relation's column in the prefixed target table, and uses on-delete
   SET NULL. A constraint name already in the catalog is skipped. This is
   what the code evidently intends. As written, the constraint query's
   result is read in a way that throws on PostgreSQL; see the Findings section.

Every existence check sees the effect of the operations issued before it.
The handler validates the body first, then provisions the tables, registers
the tenant, and reports `tablesCreated` as the number of schema tables.

The model is functional:

- `Ddl`: DDL operations (`CreateTable`, `AddForeignKey`) and an abstract
  catalog holding a set of table names and a set of constraint names.
  `ApplyAll` runs operations against the catalog.
- `Planner.Plan`: pure function that returns the ordered operations for a
  slug, a schema and a catalog. It threads the catalog through every
  iteration of both passes.
- `Trace`: the route's whole conversation with the database. Each DDL
  operation comes straight after the existence query for its name
  (`hasTable` in pass 1, the `pg_constraint` count in pass 2). Leaving out
  the queries, the trace is exactly the plan.
- `Execution`: runs a trace until the database fails a step, with no
  rollback. The database is two parameters: `answers` says whether an
  existence query completes, and `accepts` whether a DDL operation is
  carried out. A query that does not complete ends the run, as a thrown
  `hasTable` or `knex.raw` call ends the route.
  `CreateTablesWithKnex` follows the route's own interleaved loops and is
  proven to do exactly what running the trace does. When every query
  completes, that is the same as "plan, then execute".
- `DeployRoute.DeployTables`: the handler. Its outcome depends on the
  request, the catalog, the database's verdicts and whether the registry
  insert succeeded.

Two details of the route:

- The prefix replaces only `-` (routes/deploy.js:43). Every other
  character, including other separators, is kept.
- The 400 check (routes/deploy.js:123) tests JavaScript truthiness of
  `slug`, `schema` and `user_id`, and whether `schema.tables` is an array.
  So an empty-string slug is rejected. A truthy non-string slug passes the
  check and then fails with a 500 when `replace` is called on it.

A property of the code as written (`PlannerProofs.ForeignKeyNamesCollide`):
constraint names are not injective. Table `a_b` with field `c` and table `a`
with field `b_c` both name their key `<prefix>_a_b_c_fkey`. The second
field's key is treated as already present and is never added.

## Model

| member | source | states |
|---|---|---|
| `Naming.Underscored` | routes/deploy.js:43 | the prefix has the slug's length; each `-` becomes `_`; every other character is kept in place |
| `Naming.UnderscoredIdempotent` | routes/deploy.js:43 | a prefix contains no `-`, so normalising it again changes nothing |
| `Naming.TableNameInjective` | routes/deploy.js:47 | the name template `${prefix}_${table.name}` gives two schema tables of one tenant the same name exactly when their names are equal (names as the template builds them, before the database shortens long identifiers) |
| `Ddl.ApplyAllEffect` | routes/deploy.js:50-111 | characterises `Ddl.Apply` and `Ddl.ApplyAll`, the effect of `createTable` (:50) and `alterTable` (:105): running DDL only adds names, namely the tables created and the constraint names added |
| `Ddl.ApplyAllAppend` | routes/deploy.js:46-114 | running two operation lists back to back equals running their concatenation |
| `Planner.ColumnTypeOf` | routes/deploy.js:60-79 | `number`→integer, `boolean`→boolean, `date`→timestamp, `uuid`→uuid, each exactly for that string; every other type, including a missing one, →text |
| `Planner.ColumnsOf` | routes/deploy.js:52-84 | a new table has `id` (uuid, primary, default gen_random_uuid), then `created_at` and `updated_at` (timestamp, default now), then one column per field in order with the mapped type; not-null iff `required`, unique iff `unique`; no primary key or default on field columns |
| `Planner.CreatePass` | routes/deploy.js:46-87 | pass 1 emits only create operations, never for a name already in the catalog, and never the same name twice |
| `Planner.FieldsKeyPass` | routes/deploy.js:92-113 | pass 2 over one table emits only foreign keys whose names are missing from the catalog, with no name repeated |
| `Planner.KeyPass` | routes/deploy.js:90-114 | pass 2 emits only foreign keys whose names are missing from the catalog, with no name repeated across tables |
| `Planner.Plan` | routes/deploy.js:45-114 | no foreign-key operation ever precedes a create-table operation |
| `PlannerProofs.CreatePassEffect` | routes/deploy.js:46-49 | pass 1 creates exactly the schema's physical table names that the catalog lacks |
| `PlannerProofs.FieldsKeyPassEffect` | routes/deploy.js:92-102 | pass 2 over one table adds exactly the `belongsTo` constraint names of its fields that the catalog lacks |
| `PlannerProofs.KeyPassEffect` | routes/deploy.js:90-114 | pass 2 adds exactly the schema's `belongsTo` constraint names that the catalog lacks |
| `PlannerProofs.FieldsKeyPassFrom` | routes/deploy.js:92-111 | every foreign key of one table's pass is the key of one of its `belongsTo` fields |
| `PlannerProofs.KeyPassFrom` | routes/deploy.js:90-111 | every foreign key of pass 2 is the key of a `belongsTo` field of some schema table |
| `PlannerProofs.PlanParts` | routes/deploy.js:45-114 | the plan is pass 1 followed by pass 2; creates sit before the pass boundary and foreign keys after it |
| `PlannerProofs.PlanEffect` | routes/deploy.js:45-114 | applying the plan leaves the catalog holding every physical table and every `belongsTo` constraint name of the schema, and nothing else new |
| `PlannerProofs.CreatePassFirstWins` | routes/deploy.js:46-50 | each create operation carries the columns of the first schema table with that physical name; later duplicates are skipped |
| `PlannerProofs.PlanCreates` | routes/deploy.js:46-85 | a table already in the catalog gets no create operation; every other schema table gets exactly one, named prefix + `_` + name, with the columns of its first occurrence |
| `PlannerProofs.PlanForeignKeysFromBelongsTo` | routes/deploy.js:93-110 | characterises `Planner.ForeignKeyOf`: each foreign key comes from a `belongsTo` field, is missing from the catalog, is named `<table>_<field>_fkey`, targets the relation's column in the prefixed target table, and uses on-delete SET NULL |
| `PlannerProofs.PlanForeignKeysDistinct` | routes/deploy.js:95-102 | no constraint name is added twice, so a field yields at most one foreign key |
| `PlannerProofs.PlanForeignKeysComplete` | routes/deploy.js:93-111 | every `belongsTo` field whose constraint name the catalog lacks gets its foreign key |
| `PlannerProofs.ForeignKeysFollowTheirTables` | routes/deploy.js:45-114 | when a foreign key runs, the table it is added to already exists |
| `PlannerProofs.TablesOnlyGrow` | routes/deploy.js:46-114 | no later operation removes a table |
| `PlannerProofs.PlanEmptyIffSatisfied` | routes/deploy.js:48-49 | the plan is empty exactly when the catalog already holds every physical table and every `belongsTo` constraint name of the schema |
| `PlannerProofs.CreatePassNothingMissing` | routes/deploy.js:48-49 | pass 1 emits nothing when every physical table exists |
| `PlannerProofs.FieldsKeyPassNothingMissing` | routes/deploy.js:98-102 | pass 2 over one table emits nothing when all its constraint names exist |
| `PlannerProofs.KeyPassNothingMissing` | routes/deploy.js:98-102 | pass 2 emits nothing when all the schema's constraint names exist |
| `PlannerProofs.PlanIdempotent` | routes/deploy.js:48-49 | after applying a plan, planning again with the same slug and schema yields no operation |
| `PlannerProofs.ForeignKeyNamesCollide` | routes/deploy.js:95 | table `a_b` field `c` and table `a` field `b_c` share a constraint name, so only the first gets a foreign key |
| `Execution.ExecuteSpec` | routes/deploy.js:48-111 | characterises `Execution.Execute`, the DDL-only run: a run carries out an accepted prefix of the operations and leaves the catalog they produce; it stops early exactly at the first operation the database rejects |
| `Execution.ExecuteConcat` | routes/deploy.js:45-114 | running `a + b` runs `a`, then, only if nothing in `a` was rejected, runs `b` from where `a` left the catalog |
| `Trace.CreateTraceIssues` | routes/deploy.js:46-87 | characterises `Trace.CreateTrace` (with `Trace.CreateTraceAsks` and `Trace.CreateTraceGuarded`): the creates pass 1 issues between its `hasTable` queries are exactly pass 1's plan |
| `Trace.FieldsKeyTraceIssues` | routes/deploy.js:92-113 | characterises `Trace.FieldsKeyTrace` (with `Trace.FieldsKeyTraceAsks` and `Trace.FieldsKeyTraceGuarded`): the foreign keys one table's pass 2 issues between its constraint queries are exactly that table's pass-2 plan |
| `Trace.KeyTraceIssues` | routes/deploy.js:90-114 | characterises `Trace.KeyTrace` (with `Trace.KeyTraceAsks` and `Trace.KeyTraceGuarded`): the foreign keys pass 2 issues between its constraint queries are exactly pass 2's plan |
| `Trace.RouteTraceIssuesPlan` | routes/deploy.js:45-114 | characterises `Trace.RouteTrace` (with `Trace.RouteTraceGuarded`): leaving out the existence queries, the route issues exactly the plan |
| `Trace.CreateTraceAsks` | routes/deploy.js:46-48 | pass 1 asks `hasTable` once for every schema table, in schema order, whether or not the table exists, and asks about no constraint |
| `Trace.FieldsKeyTraceAsks` | routes/deploy.js:92-101 | one table's pass 2 asks about exactly the constraint names of its `belongsTo` fields, and about no table |
| `Trace.KeyTraceAsks` | routes/deploy.js:90-101 | pass 2 asks about exactly the schema's `belongsTo` constraint names, and about no table |
| `Trace.CreateTraceGuarded` | routes/deploy.js:48-50 | in pass 1 every create comes straight after the `hasTable` query for its own name |
| `Trace.FieldsKeyTraceGuarded` | routes/deploy.js:98-105 | in one table's pass 2 every foreign key comes straight after the query for its own constraint name |
| `Trace.KeyTraceGuarded` | routes/deploy.js:90-114 | in pass 2 every foreign key comes straight after the query for its own constraint name |
| `Trace.RouteTraceGuarded` | routes/deploy.js:45-114 | the route never issues DDL without first asking whether that name already exists |
| `Execution.RunTraceSpec` | routes/deploy.js:46-114 | characterises `Execution.RunTrace`, where a failed step ends the run as a thrown `await` ends the route: running the route carries out an accepted prefix of its operations and leaves the catalog they produce; it carries out all of them when nothing fails; otherwise it stops at some step of the trace: every step before it succeeded in the state the operations before that step left, the work done is exactly the operations among those steps, and the failed step was refused in the state they left; a refused operation is the next one the trace would have issued |
| `Execution.RunTraceConcat` | routes/deploy.js:45-114 | running trace `a + b` runs `a`, then, only if no step of `a` failed, runs `b` from the catalog `a`'s operations left |
| `Execution.RunTraceAnswered` | routes/deploy.js:48-101 | when every existence query completes, running a trace does the same work, leaves the same catalog and fails exactly when executing its operations does |
| `Execution.RunCreatePass` | routes/deploy.js:46-87 | the route's pass-1 loop, asking `hasTable` and creating table by table, equals running pass 1's trace, including stopping at a failed query or a rejected create |
| `Execution.RunFieldKeys` | routes/deploy.js:92-113 | the route's field loop for one table, querying `pg_constraint` and altering the table, equals running that table's pass-2 trace |
| `Execution.RunKeyPass` | routes/deploy.js:90-114 | the route's pass-2 loop equals running pass 2's trace |
| `Execution.CreateTablesWithKnex` | routes/deploy.js:42-115 | the route's interleaved query-and-DDL loops do exactly what running the route's trace does, including where a failed query or a rejected operation stops them; when every query completes, that is executing `Plan` |
| `DeployRoute.RouteRun` | routes/deploy.js:131 | provisioning carries out a prefix of the plan and leaves the catalog it produces: the whole plan, every step succeeding, when nothing fails; otherwise it stops at the failed query or the refused operation, which is the plan's next one, after every earlier step of the route succeeded, and the work done is exactly the operations among those earlier steps; when every query completes, it fails exactly when executing the plan does |
| `DeployRoute.DeployTables` | routes/deploy.js:117-153 | 400 with the fixed message and no change exactly when slug, schema or user_id is falsy or schema.tables is not an array; a non-string slug gives 500 with no change; 200 exactly when every existence query, every DDL step and the registry insert succeed, with `tablesCreated` equal to the number of schema tables and the catalog equal to the plan applied; whatever the answer, the catalog is the one provisioning left, with nothing rolled back, also when the registry insert fails after the tables exist; a failed existence query gives the 500 naming that query, after every earlier step of the route succeeded and was kept; a rejected DDL step gives the 500 naming that operation, with the plan before it kept; a failed registry insert after a complete run gives the registry 500; when every query completes, 200 exactly when executing the plan succeeds and the insert succeeds |
| `DeployRoute.ValidRequestCases` | routes/deploy.js:123 | characterises `DeployRoute.Truthy` and `DeployRoute.ValidRequest`: a property fails the check exactly when it is absent, the empty string or a falsy non-string; the body passes exactly when `slug` and `user_id` pass and `schema.tables` is an array |
| `DeployRoute.RedeployIsHarmless` | routes/deploy.js:123-148 | repeating a successful request leaves the catalog unchanged whatever happens. It returns the same response, still counting every schema table, unless the repeated registry insert (:135-137) or an existence query it asks again fails. When every query completes, the response is the same exactly when the insert succeeds, and is otherwise the registry 500 |
| `CountQuery.AsWrittenAddsNoForeignKey` | routes/deploy.js:98-102 | as written, when every constraint count throws, the route never adds a foreign key, and any schema with a `belongsTo` field gets a 500 from a failed query or operation, never the registry 500 or a 200; when the database accepts every operation, every physical table of the schema exists afterwards, so that 500 leaves the tables of pass 1 behind without their keys and with no registry row |
| `CountQuery.IntendedAddsForeignKeys` | routes/deploy.js:90-114 | as intended, when every query completes and every operation of the plan is carried out, every `belongsTo` constraint name of the schema exists afterwards |
| `DeployRoute.UnreachableDatabaseFails` | routes/deploy.js:48 | with the database unreachable, a request whose table `shop_orders` already exists gets a 500 for its failed `hasTable` query and changes nothing |

## Left out

- SQL text, Knex builders, the `pg_constraint` query and the `parseInt` of its count. The catalog is two abstract name sets.
- Database verdicts are the parameters `answers` (whether an existence query completes) and `accepts` (whether a DDL operation is carried out). A query that completes always reports the catalog truthfully. For the constraint count this assumes the result is read as a row array, which the code as written does not do (see the Findings section).
- Each DDL operation is all-or-nothing. Knex may send a create as several statements, for example one per `unique` column, and a failure part-way through would leave part of the table behind. The model counts such a create as refused and leaves the catalog unchanged.
- Columns of existing tables are not tracked. A field named `id`, `created_at` or `updated_at` collides with a fixed column; the model still plans such a table and leaves that rejection to `accepts`.
- The catalog does not record the primary-key and unique constraints that table creation adds. Their names end in `_pkey` or `_unique`, so, as long as names keep their full length, they can never equal a name ending in `_fkey`.
- Naming.TableNameInjective and every other name in the model: names are strings of any length. PostgreSQL shortens identifiers longer than 63 bytes to their first 63 bytes (NAMEDATALEN - 1), and that is not modelled. Two table names, or two constraint names, that agree in their first 63 bytes are distinct in the model, which plans both operations, while the database treats them as one name and skips or refuses the second (routes/deploy.js:50, 107). The injectivity lemma is about names as the template at routes/deploy.js:47 builds them.
- The Supabase `vendors` insert (routes/deploy.js:135-142) is a foreign client call. Only its success or failure is modelled, as the parameter `registered`.
- `table.name`, `field.name`, `relation.table` and `relation.column` are always strings in the model. In the route, the name templates coerce `table.name` (routes/deploy.js:47, 91), `relation.table` (:94) and the `field.name` inside the key name (:95), an absent one becoming `"undefined"`. Everywhere else the Knex builder receives the raw value: `field.name` as a column name (:63-78, :107) and `relation.column` as the referenced column (:108). What Knex does with a non-string there is not modelled. Only `field.type`, `field.relation` and `relation.type` can be absent (`None`). `required` and `unique` are their truthiness.
- Schemas that make `createTablesWithKnex` throw a TypeError, which the route answers with a 500 (routes/deploy.js:149-151), are not modelled: a table without a `fields` array, and a `null` entry in `schema.tables` or in a table's `fields` (routes/deploy.js:47, 58-60, 92-93).
- Environment and configuration loading, including the disabled TLS certificate verification (routes/deploy.js:2-27).
- Concurrent requests that race between an existence check and the create are not modelled; the model is sequential.
- Console logging.
- routes/chat.js (the Gemini chat proxy and the clock-reading health endpoint) and server.js (Express wiring) are not part of this model.

## Findings

| source | as written | input that shows it | evidently intended | confidence | as-written member | corrected member |
|---|---|---|---|---|---|---|
| routes/deploy.js:98-102 | `const [{ count }] = await knex.raw(...)` destructures the raw result as an array of rows, but Knex's PostgreSQL client resolves it to the driver's result object (rows under `rows`), which is not iterable, so every constraint count throws | any valid request with a `belongsTo` field, e.g. table `orders` whose field `owner_id` belongs to `owners.id` | read `result.rows[0].count`, so a missing constraint is added and an existing one skipped | medium: depends on the Knex client's raw-result shape; not executed | `CountQuery.AsWrittenAddsNoForeignKey` | `CountQuery.IntendedAddsForeignKeys` |

=== FILE: ddl.dfy ===
/**
  The schema-manipulation calls the planner issues, and the abstract database
  catalog they change. Only names are tracked: the set of physical tables and
  the set of constraint names.
 */
module Ddl {
  import opened Options

  datatype ColumnType = Text | Integer | Boolean | Timestamp | Uuid

  /** Server-side column defaults: `gen_random_uuid()` and the current time. */
  datatype ColumnDefault = GenRandomUuid | Now

  datatype Column = Column(
    name: string,
    colType: ColumnType,
    notNull: bool,
    unique: bool,
    primary: bool,
    default: Option<ColumnDefault>)

  datatype OnDelete = SetNull

  datatype DdlOp =
    | CreateTable(name: string, columns: seq<Column>)
    | AddForeignKey(table: string, column: string, fkName: string,
                    targetTable: string, targetColumn: string, onDelete: OnDelete)

  datatype Catalog = Catalog(tables: set<string>, constraints: set<string>)

  /** The physical tables a sequence of operations creates. */
  function CreatedTables(ops: seq<DdlOp>): set<string> {
    set op | op in ops && op.CreateTable? :: op.name
  }

  /** The constraint names a sequence of operations adds. */
  function AddedConstraints(ops: seq<DdlOp>): set<string> {
    set op | op in ops && op.AddForeignKey? :: op.fkName
  }

  function Apply(c: Catalog, op: DdlOp): Catalog {
    match op
    case CreateTable(name, _) => c.(tables := c.tables + {name})
    case AddForeignKey(_, _, fkName, _, _, _) => c.(constraints := c.constraints + {fkName})
  }

  /** The catalog after running `ops` one after another. */
  function ApplyAll(c: Catalog, ops: seq<DdlOp>): Catalog
    decreases |ops|
  {
    if ops == [] then c else ApplyAll(Apply(c, ops[0]), ops[1..])
  }

  /** Running operations only adds names: the tables they create and the constraints they add. */
  lemma {:induction false} ApplyAllEffect(c: Catalog, ops: seq<DdlOp>)
    ensures ApplyAll(c, ops).tables == c.tables + CreatedTables(ops)
    ensures ApplyAll(c, ops).constraints == c.constraints + AddedConstraints(ops)
    decreases |ops|
  {
    if ops != [] {
      ApplyAllEffect(Apply(c, ops[0]), ops[1..]);
      assert forall op :: op in ops <==> op == ops[0] || op in ops[1..];
      assert CreatedTables(ops) == CreatedTables([ops[0]]) + CreatedTables(ops[1..]);
      assert AddedConstraints(ops) == AddedConstraints([ops[0]]) + AddedConstraints(ops[1..]);
    }
  }

  /** Running `a` then `b` is running `a + b`. */
  lemma {:induction false} ApplyAllAppend(c: Catalog, a: seq<DdlOp>, b: seq<DdlOp>)
    ensures ApplyAll(c, a + b) == ApplyAll(ApplyAll(c, a), b)
    decreases |a|
  {
    if a == [] {
      assert a + b == b;
    } else {
      assert (a + b)[0] == a[0];
      assert (a + b)[1..] == a[1..] + b;
      ApplyAllAppend(Apply(c, a[0]), a[1..], b);
    }
  }
}

=== FILE: deploy.dfy ===
/**
  The POST /deployTables handler: validate the body, provision the tenant's
  tables, register the tenant, and answer with the number of schema tables.
 */
module DeployRoute {
  import opened Options
  import opened Schema
  import opened Naming
  import opened Ddl
  import opened Planner
  import opened PlannerProofs
  import opened Trace
  import opened Execution

  /**
    A top-level body property as JavaScript sees it: absent, a string, or
    any other JSON value, of which only its truthiness matters here.
   */
  datatype JsArg = Missing | Str(s: string) | NonString(truthy: bool)

  predicate Truthy(a: JsArg) {
    match a
    case Missing => false
    case Str(s) => s != ""
    case NonString(t) => t
  }

  /** A truthy `schema` property: `tables` is `None` unless the property is an array. */
  datatype SchemaArg = SchemaArg(tables: Option<seq<TableSpec>>)

  /** The request body; a falsy `schema` is `None`. */
  datatype Request = Request(slug: JsArg, schema: Option<SchemaArg>, userId: JsArg)

  datatype Failure =
    | SlugNotString            // a truthy slug that has no `replace` method
    | QueryFailed(query: Query) // an existence query did not complete
    | DdlRejected(op: DdlOp)   // the database refused this operation
    | RegistryInsertFailed   // the `vendors` registry insert reported an error

  datatype Response =
    | BadRequest(error: string)                       // status 400
    | ServerError(cause: Failure)                     // status 500
    | Created(message: string, tablesCreated: nat)    // status 200

  datatype Deployment = Deployment(response: Response, catalog: Catalog)

  const InvalidInputMessage: string := "Niepoprawne dane: wymagane są slug, schema.tables i user_id"
  const DeployedMessage: string := "Tabele utworzone i vendor zarejestrowany"

  /** The handler's input check: slug, schema and user_id truthy, and schema.tables an array. */
  predicate ValidRequest(req: Request) {
    Truthy(req.slug) && req.schema.Some? && req.schema.value.tables.Some? && Truthy(req.userId)
  }

  /**
    The values the input check treats as missing: an absent property, the
    empty string, and any falsy non-string value such as `0`, `false` or
    `null`. Everything else passes, including a non-string such as `42`.
   */
  lemma ValidRequestCases(req: Request)
    ensures forall a: JsArg :: Truthy(a) <==> a !in {Missing, Str(""), NonString(false)}
    ensures ValidRequest(req) <==>
      && req.slug !in {Missing, Str(""), NonString(false)}
      && req.schema.Some? && req.schema.value.tables.Some?
      && req.userId !in {Missing, Str(""), NonString(false)}
  {
  }

  /** A request that gets as far as planning: valid, with a string slug. */
  predicate Provisionable(req: Request) {
    ValidRequest(req) && req.slug.Str?
  }

  function TablesOf(req: Request): seq<TableSpec>
    requires ValidRequest(req)
  {
    req.schema.value.tables.value
  }

  /** The operations provisioning plans for `req` against `c`. */
  function PlanOf(req: Request, c: Catalog): seq<DdlOp>
    requires Provisionable(req)
  {
    Plan(req.slug.s, TablesOf(req), c)
  }

  /** The queries and operations provisioning runs for `req` against `c`. */
  function TraceOf(req: Request, c: Catalog): seq<Step>
    requires Provisionable(req)
  {
    RouteTrace(req.slug.s, TablesOf(req), c)
  }

  /** The facts of `RouteRun` about the plan, without the stopping point. */
  lemma RoutePlanRun(req: Request, c: Catalog, answers: (Catalog, Query) -> bool, accepts: (Catalog, DdlOp) -> bool)
    requires Provisionable(req)
    ensures var run := RunTrace(c, TraceOf(req, c), answers, accepts);
      var plan := PlanOf(req, c);
      && |run.done| <= |plan|
      && run.done == plan[..|run.done|]
      && run.catalog == ApplyAll(c, run.done)
      && (run.halt.None? ==> run.done == plan)
      && (run.halt.Some? && run.halt.value.Issue? ==>
            |run.done| < |plan| && plan[|run.done|] == run.halt.value.op && !accepts(run.catalog, run.halt.value.op))
      && (run.halt.Some? && run.halt.value.Ask? ==>
            Ask(run.halt.value.query) in TraceOf(req, c) && !answers(run.catalog, run.halt.value.query))
      && ((forall c': Catalog, q: Query :: answers(c', q)) ==> (run.halt.Some? <==> Execute(c, plan, accepts).failed))
  {
    var trace := TraceOf(req, c);
    RouteTraceIssuesPlan(req.slug.s, TablesOf(req), c);
    RunTracePrefix(c, trace, answers, accepts);
    var run := RunTrace(c, trace, answers, accepts);
    if run.halt.Some? && run.halt.value.Ask? {
      assert run.halt.value == Ask(run.halt.value.query);
    }
    if forall c': Catalog, q: Query :: answers(c', q) {
      RunTraceAnswered(c, trace, answers, accepts);
    }
  }

  /**
    Provisioning carries out a prefix of the plan and leaves the catalog that
    prefix produces: all of it when nothing fails. Otherwise it stops at the
    query or operation the database failed: every step of the route before
    it succeeded, and the operations among those steps are exactly the work
    done. When every query completes, it fails exactly when executing the
    plan does.
   */
  lemma RouteRun(req: Request, c: Catalog, answers: (Catalog, Query) -> bool, accepts: (Catalog, DdlOp) -> bool)
    requires Provisionable(req)
    ensures var run := RunTrace(c, TraceOf(req, c), answers, accepts);
      var plan := PlanOf(req, c);
      && |run.done| <= |plan|
      && run.done == plan[..|run.done|]
      && run.catalog == ApplyAll(c, run.done)
      && (run.halt.None? ==> run.done == plan)
      && (run.halt.Some? && run.halt.value.Issue? ==>
            |run.done| < |plan| && plan[|run.done|] == run.halt.value.op && !accepts(run.catalog, run.halt.value.op))
      && (run.halt.Some? && run.halt.value.Ask? ==>
            Ask(run.halt.value.query) in TraceOf(req, c) && !answers(run.catalog, run.halt.value.query))
      && (run.halt.None? ==> SucceedsUpTo(c, TraceOf(req, c), |TraceOf(req, c)|, answers, accepts))
      && (run.halt.Some? ==>
            exists k :: 0 <= k < |TraceOf(req, c)| && TraceOf(req, c)[k] == run.halt.value
              && run.done == Issued(TraceOf(req, c)[..k]) && SucceedsUpTo(c, TraceOf(req, c), k, answers, accepts))
      && ((forall c': Catalog, q: Query :: answers(c', q)) ==> (run.halt.Some? <==> Execute(c, plan, accepts).failed))
  {
    RoutePlanRun(req, c, answers, accepts);
    RunTraceStops(c, TraceOf(req, c), answers, accepts);
  }

  /**
    Handle one request against catalog `c`. `answers` says whether the
    database completes an existence query, `accepts` whether it carries out
    a DDL operation, and `registered` whether the registry insert succeeded.
    Nothing that was created is rolled back on a later failure: whatever the
    answer, the catalog is the one provisioning left, and each failure has
    its own 500.
   */
  function DeployTables(req: Request, c: Catalog, answers: (Catalog, Query) -> bool,
                        accepts: (Catalog, DdlOp) -> bool, registered: bool): (d: Deployment)
    ensures d.response.BadRequest? <==> !ValidRequest(req)
    ensures !ValidRequest(req) ==> d == Deployment(BadRequest(InvalidInputMessage), c)
    ensures ValidRequest(req) && !req.slug.Str? ==> d == Deployment(ServerError(SlugNotString), c)
    ensures d.response.Created? <==>
      Provisionable(req) && registered && RunTrace(c, TraceOf(req, c), answers, accepts).halt.None?
    ensures d.response.Created? ==>
      && d.response.tablesCreated == |TablesOf(req)|
      && d.catalog == ApplyAll(c, PlanOf(req, c))
    ensures d.response == ServerError(RegistryInsertFailed) ==>
      Provisionable(req) && d.catalog == ApplyAll(c, PlanOf(req, c))
    ensures d.response.ServerError? && d.response.cause.DdlRejected? ==>
      && Provisionable(req)
      && exists k :: 0 <= k < |PlanOf(req, c)|
           && d.response.cause.op == PlanOf(req, c)[k]
           && d.catalog == ApplyAll(c, PlanOf(req, c)[..k])
           && !accepts(d.catalog, d.response.cause.op)
    ensures d.response.ServerError? && d.response.cause.QueryFailed? ==>
      && Provisionable(req)
      && Ask(d.response.cause.query) in TraceOf(req, c)
      && !answers(d.catalog, d.response.cause.query)
      && (exists k :: 0 <= k <= |PlanOf(req, c)| && d.catalog == ApplyAll(c, PlanOf(req, c)[..k]))
      && exists k :: 0 <= k < |TraceOf(req, c)| && TraceOf(req, c)[k] == Ask(d.response.cause.query)
           && d.catalog == ApplyAll(c, Issued(TraceOf(req, c)[..k]))
           && SucceedsUpTo(c, TraceOf(req, c), k, answers, accepts)
    ensures Provisionable(req) ==> d.catalog == RunTrace(c, TraceOf(req, c), answers, accepts).catalog
    ensures Provisionable(req) ==>
      var halt := RunTrace(c, TraceOf(req, c), answers, accepts).halt;
      && (halt.Some? && halt.value.Ask? ==> d.response == ServerError(QueryFailed(halt.value.query)))
      && (halt.Some? && halt.value.Issue? ==> d.response == ServerError(DdlRejected(halt.value.op)))
      && (halt.None? && !registered ==> d.response == ServerError(RegistryInsertFailed))
    ensures Provisionable(req) && (forall c': Catalog, q: Query :: answers(c', q)) ==>
      && (d.response.Created? <==> registered && !Execute(c, PlanOf(req, c), accepts).failed)
      && !(d.response.ServerError? && d.response.cause.QueryFailed?)
  {
    if !ValidRequest(req) then Deployment(BadRequest(InvalidInputMessage), c)
    else if !req.slug.Str? then Deployment(ServerError(SlugNotString), c)
    else
      var run := RunTrace(c, TraceOf(req, c), answers, accepts);
      RouteRun(req, c, answers, accepts);
      if run.halt.None? then
        if !registered then Deployment(ServerError(RegistryInsertFailed), run.catalog)
        else Deployment(Created(DeployedMessage, |TablesOf(req)|), run.catalog)
      else
        match run.halt.value
        case Ask(q) => Deployment(ServerError(QueryFailed(q)), run.catalog)
        case Issue(op) => Deployment(ServerError(DdlRejected(op)), run.catalog)
  }

  /**
    Repeating a successful request creates nothing and changes nothing. The
    repeat inserts the tenant into the registry again, and `registered2`
    says whether that insert succeeds. The repeat gives the same answer,
    the count still reporting every schema table, unless the insert fails
    or one of the existence queries it asks again fails. When every query
    completes, the answer is the same exactly when the insert succeeds, and
    otherwise a registry failure.
   */
  lemma RedeployIsHarmless(req: Request, c: Catalog, answers: (Catalog, Query) -> bool,
                           accepts: (Catalog, DdlOp) -> bool, registered2: bool)
    requires DeployTables(req, c, answers, accepts, true).response.Created?
    ensures var d := DeployTables(req, c, answers, accepts, true);
      var again := DeployTables(req, d.catalog, answers, accepts, registered2);
      && again.catalog == d.catalog
      && (|| again == d
          || again.response == ServerError(RegistryInsertFailed)
          || (again.response.ServerError? && again.response.cause.QueryFailed?))
      && ((forall q: Query :: answers(d.catalog, q)) ==>
            && (again == d <==> registered2)
            && (!registered2 ==> again.response == ServerError(RegistryInsertFailed)))
  {
    var d := DeployTables(req, c, answers, accepts, true);
    PlanIdempotent(req.slug.s, TablesOf(req), c);
    assert PlanOf(req, d.catalog) == [];
    var trace := TraceOf(req, d.catalog);
    RouteTraceIssuesPlan(req.slug.s, TablesOf(req), d.catalog);
    RunTracePrefix(d.catalog, trace, answers, accepts);
  }

  /**
    With the database unreachable, a request whose tables already exist still
    fails: the first `hasTable` query does not complete, so the answer is a
    500 and nothing changes.
   */
  lemma UnreachableDatabaseFails()
    ensures var req := Request(Str("shop"), Some(SchemaArg(Some([TableSpec("orders", [])]))), Str("u1"));
      var c := Catalog({"shop_orders"}, {});
      DeployTables(req, c, (c': Catalog, q: Query) => false, (c': Catalog, op: DdlOp) => false, true)
        == Deployment(ServerError(QueryFailed(HasTable("shop_orders"))), c)
  {
    var req := Request(Str("shop"), Some(SchemaArg(Some([TableSpec("orders", [])]))), Str("u1"));
    var c := Catalog({"shop_orders"}, {});
    assert Underscored("shop") == "shop";
    assert TableName("shop", "orders") == "shop_orders";
    assert TraceOf(req, c)[0] == Ask(HasTable("shop_orders"));
  }
}

=== FILE: execution.dfy ===
/**
  Running the route against the database. The database is abstract:
  `answers` says whether an existence query completes in a given catalog
  state, and `accepts` whether a DDL operation is carried out (either may
  fail because the database is unreachable, a referenced table or column is
  missing, or for any other reason). The first failure ends the run; nothing
  already done is rolled back.
 */
module Execution {
  import opened Options
  import opened Schema
  import opened Naming
  import opened Ddl
  import opened Planner
  import opened Trace

  /** The operations carried out, the catalog they left, and whether a rejection stopped the run. */
  datatype Outcome = Outcome(done: seq<DdlOp>, catalog: Catalog, failed: bool)

  /** The database accepted each of `ops` in turn, starting from `c`. */
  predicate AcceptedRun(c: Catalog, ops: seq<DdlOp>, accepts: (Catalog, DdlOp) -> bool)
    decreases |ops|
  {
    ops == [] || (accepts(c, ops[0]) && AcceptedRun(Apply(c, ops[0]), ops[1..], accepts))
  }

  /** Run `ops` in order until the database rejects one. */
  function Execute(c: Catalog, ops: seq<DdlOp>, accepts: (Catalog, DdlOp) -> bool): Outcome
    decreases |ops|
  {
    if ops == [] then Outcome([], c, false)
    else if !accepts(c, ops[0]) then Outcome([], c, true)
    else
      var o := Execute(Apply(c, ops[0]), ops[1..], accepts);
      Outcome([ops[0]] + o.done, o.catalog, o.failed)
  }

  /**
    A run carries out an accepted prefix of the operations and leaves the
    catalog those produce; it stops early exactly when the database rejects
    the next operation.
   */
  lemma {:induction false} ExecuteSpec(c: Catalog, ops: seq<DdlOp>, accepts: (Catalog, DdlOp) -> bool)
    ensures var o := Execute(c, ops, accepts);
      && o.done <= ops
      && o.catalog == ApplyAll(c, o.done)
      && AcceptedRun(c, o.done, accepts)
      && (!o.failed <==> o.done == ops)
      && (o.failed ==> |o.done| < |ops| && !accepts(o.catalog, ops[|o.done|]))
    decreases |ops|
  {
    if ops != [] && accepts(c, ops[0]) {
      ExecuteSpec(Apply(c, ops[0]), ops[1..], accepts);
    }
  }

  /** `o` with `log` carried out before it. */
  function After(log: seq<DdlOp>, o: Outcome): Outcome {
    Outcome(log + o.done, o.catalog, o.failed)
  }

  /**
    Running `a + b` runs `a`; if the database rejected none of `a`, it goes
    on to run `b` from the catalog `a` left behind.
   */
  lemma {:induction false} ExecuteConcat(c: Catalog, a: seq<DdlOp>, b: seq<DdlOp>, accepts: (Catalog, DdlOp) -> bool)
    ensures var first := Execute(c, a, accepts);
      Execute(c, a + b, accepts)
        == if first.failed then first else After(a, Execute(ApplyAll(c, a), b, accepts))
    decreases |a|
  {
    if a == [] {
      assert a + b == b;
      assert After([], Execute(c, b, accepts)) == Execute(c, b, accepts);
    } else {
      assert (a + b)[0] == a[0];
      assert (a + b)[1..] == a[1..] + b;
      ExecuteConcat(Apply(c, a[0]), a[1..], b, accepts);
      if accepts(c, a[0]) {
        assert [a[0]] + a[1..] == a;
      }
    }
  }

  /** The DDL carried out, the catalog it left, and the step the database failed on, if any. */
  datatype Run = Run(done: seq<DdlOp>, catalog: Catalog, halt: Option<Step>)

  /** Whether the database carries out step `s` in catalog state `c`. */
  predicate Succeeds(c: Catalog, s: Step, answers: (Catalog, Query) -> bool, accepts: (Catalog, DdlOp) -> bool) {
    match s
    case Ask(q) => answers(c, q)
    case Issue(op) => accepts(c, op)
  }

  /** Run a trace step by step until the database fails one. A query leaves the catalog as it is. */
  function RunTrace(c: Catalog, steps: seq<Step>, answers: (Catalog, Query) -> bool, accepts: (Catalog, DdlOp) -> bool): Run
    decreases |steps|
  {
    if steps == [] then Run([], c, None)
    else if !Succeeds(c, steps[0], answers, accepts) then Run([], c, Some(steps[0]))
    else if steps[0].Ask? then RunTrace(c, steps[1..], answers, accepts)
    else
      var r := RunTrace(Apply(c, steps[0].op), steps[1..], answers, accepts);
      Run([steps[0].op] + r.done, r.catalog, r.halt)
  }

  /**
    Each of the first `k` steps of a trace succeeds in the catalog the
    operations before it left.
   */
  predicate SucceedsUpTo(c: Catalog, steps: seq<Step>, k: int, answers: (Catalog, Query) -> bool, accepts: (Catalog, DdlOp) -> bool) {
    forall i :: 0 <= i < k && i < |steps| ==> Succeeds(ApplyAll(c, Issued(steps[..i])), steps[i], answers, accepts)
  }

  /** The catalog after step `s`, when the database carries it out. */
  function StepCatalog(c: Catalog, s: Step): Catalog {
    if s.Issue? then Apply(c, s.op) else c
  }

  /** The state before step `i` of a trace is the state before step `i - 1` of its tail, run from the first step's catalog. */
  lemma PrefixState(c: Catalog, steps: seq<Step>, i: int)
    requires 0 < i <= |steps|
    ensures ApplyAll(c, Issued(steps[..i])) == ApplyAll(StepCatalog(c, steps[0]), Issued(steps[1..][..i - 1]))
  {
    var pre := steps[..i];
    assert pre[0] == steps[0] && pre[1..] == steps[1..][..i - 1];
    var tail := Issued(steps[1..][..i - 1]);
    if steps[0].Issue? {
      assert Issued(pre) == [steps[0].op] + tail;
      assert ([steps[0].op] + tail)[1..] == tail;
    } else {
      assert Issued(pre) == [] + tail == tail;
    }
  }

  /** Success of a first step and of the first `k - 1` steps after it is success of the first `k` steps. */
  lemma SucceedsUpToCons(c: Catalog, steps: seq<Step>, k: int, answers: (Catalog, Query) -> bool, accepts: (Catalog, DdlOp) -> bool)
    requires 0 < k <= |steps|
    requires Succeeds(c, steps[0], answers, accepts)
    requires SucceedsUpTo(StepCatalog(c, steps[0]), steps[1..], k - 1, answers, accepts)
    ensures SucceedsUpTo(c, steps, k, answers, accepts)
  {
    forall i | 0 <= i < k && i < |steps|
      ensures Succeeds(ApplyAll(c, Issued(steps[..i])), steps[i], answers, accepts)
    {
      if i == 0 {
        assert steps[..0] == [];
      } else {
        PrefixState(c, steps, i);
        assert steps[i] == steps[1..][i - 1];
      }
    }
  }

  /**
    Where a run stops: it halts on step `k` of the trace after every step
    before it succeeded, having carried out exactly the operations among
    those steps; a run that does not halt had every step succeed.
   */
  lemma {:induction false} RunTraceStops(c: Catalog, steps: seq<Step>, answers: (Catalog, Query) -> bool, accepts: (Catalog, DdlOp) -> bool)
    ensures var r := RunTrace(c, steps, answers, accepts);
      && (r.halt.None? ==> SucceedsUpTo(c, steps, |steps|, answers, accepts))
      && (r.halt.Some? ==>
            exists k :: 0 <= k < |steps| && steps[k] == r.halt.value
              && r.done == Issued(steps[..k]) && SucceedsUpTo(c, steps, k, answers, accepts))
    decreases |steps|
  {
    var r := RunTrace(c, steps, answers, accepts);
    if steps == [] {
    } else if !Succeeds(c, steps[0], answers, accepts) {
      assert steps[..0] == [];
      assert steps[0] == r.halt.value && r.done == Issued(steps[..0]);
    } else {
      var next := StepCatalog(c, steps[0]);
      var rest := steps[1..];
      RunTraceStops(next, rest, answers, accepts);
      var rr := RunTrace(next, rest, answers, accepts);
      var head := if steps[0].Issue? then [steps[0].op] else [];
      assert r.done == head + rr.done && r.halt == rr.halt;
      if rr.halt.None? {
        SucceedsUpToCons(c, steps, |steps|, answers, accepts);
      } else {
        var k :| 0 <= k < |rest| && rest[k] == rr.halt.value
          && rr.done == Issued(rest[..k]) && SucceedsUpTo(next, rest, k, answers, accepts);
        SucceedsUpToCons(c, steps, k + 1, answers, accepts);
        var pre := steps[..k + 1];
        assert pre[0] == steps[0] && pre[1..] == rest[..k];
        assert Issued(pre) == head + Issued(rest[..k]);
        assert steps[k + 1] == r.halt.value;
      }
    }
  }

  /** The facts about a run's work and catalog that need no stopping point; `RunTraceSpec` states them all. */
  lemma {:induction false} RunTracePrefix(c: Catalog, steps: seq<Step>, answers: (Catalog, Query) -> bool, accepts: (Catalog, DdlOp) -> bool)
    ensures var r := RunTrace(c, steps, answers, accepts);
      && r.done <= Issued(steps)
      && r.catalog == ApplyAll(c, r.done)
      && AcceptedRun(c, r.done, accepts)
      && (r.halt.None? ==> r.done == Issued(steps))
      && (r.halt.Some? ==> r.halt.value in steps && !Succeeds(r.catalog, r.halt.value, answers, accepts))
      && (r.halt.Some? && r.halt.value.Issue? ==>
            |r.done| < |Issued(steps)| && Issued(steps)[|r.done|] == r.halt.value.op)
    decreases |steps|
  {
    if steps != [] && Succeeds(c, steps[0], answers, accepts) {
      if steps[0].Ask? {
        RunTracePrefix(c, steps[1..], answers, accepts);
      } else {
        RunTracePrefix(Apply(c, steps[0].op), steps[1..], answers, accepts);
      }
      assert forall s :: s in steps[1..] ==> s in steps;
    }
  }

  /**
    A run carries out a prefix of the trace's operations, all accepted, and
    leaves the catalog they produce. It carries out all of them, every step
    succeeding, when nothing fails. Otherwise it stops at some step `k` of
    the trace: every step before `k` succeeded, the operations among them
    are exactly the work done, and the database failed step `k` in the state
    they left; a refused operation is the next one the trace would have
    issued.
   */
  lemma RunTraceSpec(c: Catalog, steps: seq<Step>, answers: (Catalog, Query) -> bool, accepts: (Catalog, DdlOp) -> bool)
    ensures var r := RunTrace(c, steps, answers, accepts);
      && r.done <= Issued(steps)
      && r.catalog == ApplyAll(c, r.done)
      && AcceptedRun(c, r.done, accepts)
      && (r.halt.None? ==> r.done == Issued(steps) && SucceedsUpTo(c, steps, |steps|, answers, accepts))
      && (r.halt.Some? ==>
            exists k :: 0 <= k < |steps| && steps[k] == r.halt.value
              && r.done == Issued(steps[..k]) && SucceedsUpTo(c, steps, k, answers, accepts))
      && (r.halt.Some? ==> r.halt.value in steps && !Succeeds(r.catalog, r.halt.value, answers, accepts))
      && (r.halt.Some? && r.halt.value.Issue? ==>
            |r.done| < |Issued(steps)| && Issued(steps)[|r.done|] == r.halt.value.op)
  {
    RunTracePrefix(c, steps, answers, accepts);
    RunTraceStops(c, steps, answers, accepts);
  }

  /** `r` with `log` carried out before it. */
  function AfterRun(log: seq<DdlOp>, r: Run): Run {
    Run(log + r.done, r.catalog, r.halt)
  }

  /**
    Running trace `a + b` runs `a`; if nothing in `a` failed, it goes on to
    run `b` from the catalog `a`'s operations left behind.
   */
  lemma {:induction false} RunTraceConcat(c: Catalog, a: seq<Step>, b: seq<Step>, answers: (Catalog, Query) -> bool, accepts: (Catalog, DdlOp) -> bool)
    ensures var first := RunTrace(c, a, answers, accepts);
      RunTrace(c, a + b, answers, accepts)
        == if first.halt.Some? then first else AfterRun(Issued(a), RunTrace(ApplyAll(c, Issued(a)), b, answers, accepts))
    decreases |a|
  {
    if a == [] {
      assert a + b == b;
      assert AfterRun([], RunTrace(c, b, answers, accepts)) == RunTrace(c, b, answers, accepts);
    } else {
      assert (a + b)[0] == a[0];
      assert (a + b)[1..] == a[1..] + b;
      if Succeeds(c, a[0], answers, accepts) {
        if a[0].Ask? {
          assert Issued(a) == [] + Issued(a[1..]) == Issued(a[1..]);
          RunTraceConcat(c, a[1..], b, answers, accepts);
        } else {
          var op := a[0].op;
          RunTraceConcat(Apply(c, op), a[1..], b, answers, accepts);
          var rest := Issued(a[1..]);
          assert Issued(a) == [op] + rest;
          assert ([op] + rest)[1..] == rest;
          assert ApplyAll(c, Issued(a)) == ApplyAll(Apply(c, op), rest);
          var tail := RunTrace(ApplyAll(c, Issued(a)), b, answers, accepts);
          assert [op] + (rest + tail.done) == ([op] + rest) + tail.done;
        }
      }
    }
  }

  /**
    When every existence query completes, running a trace is executing its
    operations: the same work done, the same catalog, and a failure exactly
    when the DDL-only run fails.
   */
  lemma {:induction false} RunTraceAnswered(c: Catalog, steps: seq<Step>, answers: (Catalog, Query) -> bool, accepts: (Catalog, DdlOp) -> bool)
    requires forall c': Catalog, q: Query :: answers(c', q)
    ensures var r := RunTrace(c, steps, answers, accepts);
      var e := Execute(c, Issued(steps), accepts);
      r.done == e.done && r.catalog == e.catalog && (r.halt.Some? <==> e.failed)
    decreases |steps|
  {
    if steps != [] {
      var rest := Issued(steps[1..]);
      if steps[0].Ask? {
        assert answers(c, steps[0].query);
        assert Issued(steps) == [] + rest == rest;
        RunTraceAnswered(c, steps[1..], answers, accepts);
      } else {
        var op := steps[0].op;
        assert Issued(steps) == [op] + rest;
        assert ([op] + rest)[1..] == rest;
        RunTraceAnswered(Apply(c, op), steps[1..], answers, accepts);
      }
    }
  }

  /** Pass 1 of the route: ask whether each physical table exists, create it when it does not. */
  method RunCreatePass(prefix: string, tables: seq<TableSpec>, c: Catalog,
                       answers: (Catalog, Query) -> bool, accepts: (Catalog, DdlOp) -> bool)
    returns (o: Run)
    ensures o == RunTrace(c, CreateTrace(prefix, tables, c), answers, accepts)
  {
    ghost var whole := RunTrace(c, CreateTrace(prefix, tables, c), answers, accepts);
    var cat := c;
    var log: seq<DdlOp> := [];
    var i := 0;
    while i < |tables|
      invariant 0 <= i <= |tables|
      invariant whole == AfterRun(log, RunTrace(cat, CreateTrace(prefix, tables[i..], cat), answers, accepts))
    {
      assert tables[i..][1..] == tables[i + 1..];
      var tableName := TableName(prefix, tables[i].name);
      var ask := Ask(HasTable(tableName));
      assert log + [] == log;
      if !answers(cat, ask.query) {
        return Run(log, cat, Some(ask));
      }
      var present := tableName in cat.tables;
      if !present {
        var op := CreateTable(tableName, ColumnsOf(tables[i].fields));
        ghost var rest := CreateTrace(prefix, tables[i + 1..], Apply(cat, op));
        assert ([ask, Issue(op)] + rest)[1..] == [Issue(op)] + rest;
        assert ([Issue(op)] + rest)[1..] == rest;
        if !accepts(cat, op) {
          return Run(log, cat, Some(Issue(op)));
        }
        ghost var next := RunTrace(Apply(cat, op), rest, answers, accepts);
        assert log + ([op] + next.done) == (log + [op]) + next.done;
        log := log + [op];
        cat := Apply(cat, op);
      } else {
        ghost var rest := CreateTrace(prefix, tables[i + 1..], cat);
        assert ([ask] + rest)[1..] == rest;
      }
      i := i + 1;
    }
    assert log + [] == log;
    o := Run(log, cat, None);
  }

  /** Pass 2 for one table: ask about each `belongsTo` constraint name, add the foreign key when it is missing. */
  method RunFieldKeys(prefix: string, tableName: string, fields: seq<FieldSpec>, c: Catalog,
                      answers: (Catalog, Query) -> bool, accepts: (Catalog, DdlOp) -> bool)
    returns (o: Run)
    ensures o == RunTrace(c, FieldsKeyTrace(prefix, tableName, fields, c), answers, accepts)
  {
    ghost var whole := RunTrace(c, FieldsKeyTrace(prefix, tableName, fields, c), answers, accepts);
    var cat := c;
    var log: seq<DdlOp> := [];
    var j := 0;
    while j < |fields|
      invariant 0 <= j <= |fields|
      invariant whole == AfterRun(log, RunTrace(cat, FieldsKeyTrace(prefix, tableName, fields[j..], cat), answers, accepts))
    {
      assert fields[j..][1..] == fields[j + 1..];
      var field := fields[j];
      if field.relation.Some? && field.relation.value.kind == Some(BelongsTo) {
        var targetTable := TableName(prefix, field.relation.value.table);
        var fkName := ForeignKeyName(tableName, field.name);
        var ask := Ask(HasConstraint(fkName));
        assert log + [] == log;
        if !answers(cat, ask.query) {
          return Run(log, cat, Some(ask));
        }
        var count := if fkName in cat.constraints then 1 else 0;
        if count == 0 {
          var op := AddForeignKey(tableName, field.name, fkName, targetTable, field.relation.value.column, SetNull);
          ghost var rest := FieldsKeyTrace(prefix, tableName, fields[j + 1..], Apply(cat, op));
          assert ([ask, Issue(op)] + rest)[1..] == [Issue(op)] + rest;
          assert ([Issue(op)] + rest)[1..] == rest;
          if !accepts(cat, op) {
            return Run(log, cat, Some(Issue(op)));
          }
          ghost var next := RunTrace(Apply(cat, op), rest, answers, accepts);
          assert log + ([op] + next.done) == (log + [op]) + next.done;
          log := log + [op];
          cat := Apply(cat, op);
        } else {
          ghost var rest := FieldsKeyTrace(prefix, tableName, fields[j + 1..], cat);
          assert ([ask] + rest)[1..] == rest;
        }
      }
      j := j + 1;
    }
    assert log + [] == log;
    o := Run(log, cat, None);
  }

  /**
    Running pass 2 runs the first table's queries and keys; if none of them
    failed, it goes on with the remaining tables from the catalog they left.
   */
  lemma KeyTraceStep(prefix: string, tables: seq<TableSpec>, c: Catalog,
                     answers: (Catalog, Query) -> bool, accepts: (Catalog, DdlOp) -> bool)
    requires tables != []
    ensures var r := RunTrace(c, FieldsKeyTrace(prefix, TableName(prefix, tables[0].name), tables[0].fields, c), answers, accepts);
      RunTrace(c, KeyTrace(prefix, tables, c), answers, accepts)
        == if r.halt.Some? then r else AfterRun(r.done, RunTrace(r.catalog, KeyTrace(prefix, tables[1..], r.catalog), answers, accepts))
  {
    var here := FieldsKeyTrace(prefix, TableName(prefix, tables[0].name), tables[0].fields, c);
    var later := KeyTrace(prefix, tables[1..], ApplyAll(c, Issued(here)));
    assert KeyTrace(prefix, tables, c) == here + later;
    RunTraceConcat(c, here, later, answers, accepts);
    RunTracePrefix(c, here, answers, accepts);
  }

  /** Pass 2 of the route: the constraint queries and foreign keys of every table, table by table. */
  method RunKeyPass(prefix: string, tables: seq<TableSpec>, c: Catalog,
                    answers: (Catalog, Query) -> bool, accepts: (Catalog, DdlOp) -> bool)
    returns (o: Run)
    ensures o == RunTrace(c, KeyTrace(prefix, tables, c), answers, accepts)
  {
    ghost var whole := RunTrace(c, KeyTrace(prefix, tables, c), answers, accepts);
    var cat := c;
    var log: seq<DdlOp> := [];
    var i := 0;
    while i < |tables|
      invariant 0 <= i <= |tables|
      invariant whole == AfterRun(log, RunTrace(cat, KeyTrace(prefix, tables[i..], cat), answers, accepts))
    {
      var tableName := TableName(prefix, tables[i].name);
      var r := RunFieldKeys(prefix, tableName, tables[i].fields, cat, answers, accepts);
      KeyTraceStep(prefix, tables[i..], cat, answers, accepts);
      assert tables[i..][1..] == tables[i + 1..];
      if r.halt.Some? {
        return AfterRun(log, r);
      }
      ghost var next := RunTrace(r.catalog, KeyTrace(prefix, tables[i + 1..], r.catalog), answers, accepts);
      assert log + (r.done + next.done) == (log + r.done) + next.done;
      log := log + r.done;
      cat := r.catalog;
      i := i + 1;
    }
    assert log + [] == log;
    o := Run(log, cat, None);
  }

  /**
    The provisioning routine as the route runs it: pass 1 asks about each
    physical table and creates it when missing, pass 2 asks about each
    `belongsTo` constraint name and adds the foreign key when missing, every
    answer reflecting the operations carried out before it. It does exactly
    what running the route's trace does; when every query completes, that is
    planning first and then executing the plan.
   */
  method CreateTablesWithKnex(slug: string, tables: seq<TableSpec>, c: Catalog,
                              answers: (Catalog, Query) -> bool, accepts: (Catalog, DdlOp) -> bool)
    returns (o: Run)
    ensures o == RunTrace(c, RouteTrace(slug, tables, c), answers, accepts)
    ensures (forall c': Catalog, q: Query :: answers(c', q)) ==>
      var e := Execute(c, Plan(slug, tables, c), accepts);
      o.done == e.done && o.catalog == e.catalog && (o.halt.Some? <==> e.failed)
  {
    var prefix := Underscored(slug);
    ghost var creates := CreateTrace(prefix, tables, c);
    ghost var keys := KeyTrace(prefix, tables, ApplyAll(c, Issued(creates)));
    assert RouteTrace(slug, tables, c) == creates + keys;
    RouteTraceIssuesPlan(slug, tables, c);
    if forall c': Catalog, q: Query :: answers(c', q) {
      RunTraceAnswered(c, RouteTrace(slug, tables, c), answers, accepts);
    }
    var first := RunCreatePass(prefix, tables, c, answers, accepts);
    RunTraceConcat(c, creates, keys, answers, accepts);
    if first.halt.Some? {
      return first;
    }
    RunTracePrefix(c, creates, answers, accepts);
    var second := RunKeyPass(prefix, tables, first.catalog, answers, accepts);
    o := AfterRun(first.done, second);
  }
}

=== FILE: findings.dfy ===
/**
  The `pg_constraint` count query of pass 2 (routes/deploy.js:98-102).
  As written, it destructures `await knex.raw(...)` as an array of rows,
  `const [{ count }] = ...`. Knex's PostgreSQL client resolves a raw query
  to the driver's result object, which holds its rows under `rows` and is
  not iterable. So the destructuring throws on the first `belongsTo` field
  and the route answers 500. Evidently it was meant to read
  `result.rows[0].count`. The rest of the model reads the count as
  intended: its answer reports whether the constraint name exists.
 */
module CountQuery {
  import opened Schema
  import opened Naming
  import opened Ddl
  import opened Planner
  import opened PlannerProofs
  import opened Trace
  import opened Execution
  import opened DeployRoute

  /**
    Which existence queries complete as written: `hasTable` does, while
    every constraint count throws while its result is destructured.
   */
  predicate AsWrittenAnswers(c: Catalog, q: Query) {
    q.HasTable?
  }

  /** Queries whose result the route reads correctly complete. */
  predicate AnswersAll(c: Catalog, q: Query) {
    true
  }

  /** Every operation after the first comes straight after the query about its own name. */
  predicate GuardedAfterFirst(steps: seq<Step>) {
    forall k :: 0 < k < |steps| && steps[k].Issue? ==> steps[k - 1] == Ask(GuardOf(steps[k].op))
  }

  /** The trace asks about some constraint name. */
  predicate AsksConstraint(steps: seq<Step>) {
    exists s :: s in steps && s.Ask? && s.query.HasConstraint?
  }

  /**
    As written, a run whose foreign keys are each guarded by their
    constraint query never adds a foreign key, and a run that reaches a
    constraint query fails there.
   */
  lemma {:induction false} AsWrittenRun(c: Catalog, steps: seq<Step>, accepts: (Catalog, DdlOp) -> bool)
    requires GuardedAfterFirst(steps)
    requires steps != [] && steps[0].Issue? ==> !steps[0].op.AddForeignKey?
    ensures var r := RunTrace(c, steps, AsWrittenAnswers, accepts);
      && (forall op :: op in r.done ==> !op.AddForeignKey?)
      && (AsksConstraint(steps) ==> r.halt.Some?)
    decreases |steps|
  {
    if steps != [] && Succeeds(c, steps[0], AsWrittenAnswers, accepts) {
      var rest := steps[1..];
      assert GuardedAfterFirst(rest) by {
        forall k | 0 < k < |rest| && rest[k].Issue?
          ensures rest[k - 1] == Ask(GuardOf(rest[k].op))
        {
          assert rest[k] == steps[k + 1] && rest[k - 1] == steps[k];
        }
      }
      assert rest != [] ==> rest[0] == steps[1];
      if steps[0].Ask? {
        AsWrittenRun(c, rest, accepts);
      } else {
        AsWrittenRun(Apply(c, steps[0].op), rest, accepts);
      }
      if AsksConstraint(steps) {
        var s :| s in steps && s.Ask? && s.query.HasConstraint?;
        assert s != steps[0];
        assert s in rest;
      }
    }
  }

  /** As written, a trace that asks about no constraint runs to its end when the database accepts every operation. */
  lemma {:induction false} AsWrittenTablesOnly(c: Catalog, steps: seq<Step>, accepts: (Catalog, DdlOp) -> bool)
    requires forall c': Catalog, op: DdlOp :: accepts(c', op)
    requires forall s :: s in steps && s.Ask? ==> s.query.HasTable?
    ensures RunTrace(c, steps, AsWrittenAnswers, accepts).halt.None?
    decreases |steps|
  {
    if steps != [] {
      assert forall s :: s in steps[1..] ==> s in steps;
      if steps[0].Ask? {
        AsWrittenTablesOnly(c, steps[1..], accepts);
      } else {
        AsWrittenTablesOnly(Apply(c, steps[0].op), steps[1..], accepts);
      }
    }
  }

  /**
    As written, with the database accepting every operation, pass 1 runs to
    its end: afterwards every physical table of the schema exists.
   */
  lemma AsWrittenLeavesTables(req: Request, c: Catalog, accepts: (Catalog, DdlOp) -> bool)
    requires Provisionable(req)
    requires forall c': Catalog, op: DdlOp :: accepts(c', op)
    ensures RunTrace(c, TraceOf(req, c), AsWrittenAnswers, accepts).catalog.tables
      == c.tables + PhysicalNames(Underscored(req.slug.s), TablesOf(req))
  {
    var tables := TablesOf(req);
    var prefix := Underscored(req.slug.s);
    var creates := CreateTrace(prefix, tables, c);
    var mid := ApplyAll(c, Issued(creates));
    var keys := KeyTrace(prefix, tables, mid);
    assert TraceOf(req, c) == creates + keys;
    CreateTraceAsks(prefix, tables, c);
    AsWrittenTablesOnly(c, creates, accepts);
    RunTracePrefix(c, creates, AsWrittenAnswers, accepts);
    RunTraceConcat(c, creates, keys, AsWrittenAnswers, accepts);
    var tail := RunTrace(mid, keys, AsWrittenAnswers, accepts);
    var run := AfterRun(Issued(creates), tail);
    assert RunTrace(c, TraceOf(req, c), AsWrittenAnswers, accepts) == run;
    RunTracePrefix(mid, keys, AsWrittenAnswers, accepts);
    KeyTraceIssues(prefix, tables, mid);
    forall op | op in tail.done
      ensures op.AddForeignKey?
    {
      var i :| 0 <= i < |tail.done| && tail.done[i] == op;
      assert op in Issued(keys);
    }
    NoCreatesAmongKeys(tail.done);
    CreateTraceIssues(prefix, tables, c);
    CreatePassEffect(prefix, tables, c);
    ApplyAllEffect(c, Issued(creates));
    ApplyAllAppend(c, Issued(creates), tail.done);
    ApplyAllEffect(mid, tail.done);
  }

  /**
    As written, the route never adds a foreign key, and a schema with any
    `belongsTo` field always gets a 500. When the database carries out every
    operation, the tables of pass 1 stay behind without their keys.
   */
  lemma AsWrittenAddsNoForeignKey(req: Request, c: Catalog, accepts: (Catalog, DdlOp) -> bool, registered: bool)
    ensures var d := DeployTables(req, c, AsWrittenAnswers, accepts, registered);
      && d.catalog.constraints == c.constraints
      && (Provisionable(req) && ForeignKeyNames(Underscored(req.slug.s), TablesOf(req)) != {} ==>
            d.response.ServerError? && !(d.response.cause == RegistryInsertFailed))
      && (Provisionable(req) && (forall c': Catalog, op: DdlOp :: accepts(c', op)) ==>
            d.catalog.tables == c.tables + PhysicalNames(Underscored(req.slug.s), TablesOf(req)))
  {
    if Provisionable(req) && forall c': Catalog, op: DdlOp :: accepts(c', op) {
      AsWrittenLeavesTables(req, c, accepts);
    }
    if Provisionable(req) {
      var slug := req.slug.s;
      var tables := TablesOf(req);
      var prefix := Underscored(slug);
      var steps := TraceOf(req, c);
      RouteRun(req, c, AsWrittenAnswers, accepts);
      RouteTraceGuarded(slug, tables, c);
      assert steps != [] ==> !steps[0].Issue?;
      AsWrittenRun(c, steps, accepts);
      var run := RunTrace(c, steps, AsWrittenAnswers, accepts);
      ApplyAllEffect(c, run.done);
      assert AddedConstraints(run.done) == {};
      if ForeignKeyNames(prefix, tables) != {} {
        var creates := CreateTrace(prefix, tables, c);
        var keys := KeyTrace(prefix, tables, ApplyAll(c, Issued(creates)));
        assert steps == creates + keys;
        KeyTraceAsks(prefix, tables, ApplyAll(c, Issued(creates)));
        var name :| name in ForeignKeyNames(prefix, tables);
        assert name in AskedConstraints(keys);
        var s :| s in keys && s.Ask? && s.query.HasConstraint? && s.query.name == name;
        assert s in steps;
      }
    }
  }

  /**
    As intended, when every query completes and the database carries out
    every operation of the plan, every `belongsTo` constraint name of the
    schema exists afterwards, whether or not the registry insert succeeds.
   */
  lemma IntendedAddsForeignKeys(req: Request, c: Catalog, accepts: (Catalog, DdlOp) -> bool, registered: bool)
    requires Provisionable(req)
    ensures var d := DeployTables(req, c, AnswersAll, accepts, registered);
      !Execute(c, PlanOf(req, c), accepts).failed ==>
        ForeignKeyNames(Underscored(req.slug.s), TablesOf(req)) <= d.catalog.constraints
  {
    RouteRun(req, c, AnswersAll, accepts);
    PlanEffect(req.slug.s, TablesOf(req), c);
  }
}

=== FILE: naming.dfy ===
/** How tenant-scoped table names and foreign-key constraint names are built. */
module Naming {

  /**
    The table prefix of a tenant: the slug with every hyphen replaced by an
    underscore and every other character kept in place.
   */
  function Underscored(slug: string): (prefix: string)
    ensures |prefix| == |slug|
    ensures forall i :: 0 <= i < |slug| ==>
      prefix[i] == (if slug[i] == '-' then '_' else slug[i])
  {
    if slug == [] then []
    else [if slug[0] == '-' then '_' else slug[0]] + Underscored(slug[1..])
  }

  /** The physical name of a schema table inside a tenant's namespace. */
  function TableName(prefix: string, name: string): string {
    prefix + "_" + name
  }

  /** The constraint name of the foreign key on `field` of physical table `tableName`. */
  function ForeignKeyName(tableName: string, field: string): string {
    tableName + "_" + field + "_fkey"
  }

  /** A prefix never contains a hyphen, so normalising it again changes nothing. */
  lemma UnderscoredIdempotent(slug: string)
    ensures '-' !in Underscored(slug)
    ensures Underscored(Underscored(slug)) == Underscored(slug)
  {
  }

  /** Two tables of one tenant get the same physical name only when their schema names agree. */
  lemma TableNameInjective(prefix: string, a: string, b: string)
    ensures TableName(prefix, a) == TableName(prefix, b) <==> a == b
  {
    if TableName(prefix, a) == TableName(prefix, b) {
      var n := |prefix| + 1;
      assert a == TableName(prefix, a)[n..];
      assert b == TableName(prefix, b)[n..];
    }
  }
}

=== FILE: options.dfy ===
/** The optional value used wherever a JSON property may be absent. */
module Options {

  datatype Option<+T> = None | Some(value: T)
}

=== FILE: planner.dfy ===
/**
  The schema-to-DDL planner: given a tenant slug, the schema's tables and the
  catalog, the ordered DDL operations `createTablesWithKnex` issues.
  Pass 1 creates every missing table; pass 2 adds every missing `belongsTo`
  foreign key. Each existence check sees the catalog as changed by the
  operations emitted before it.
 */
module Planner {
  import opened Options
  import opened Schema
  import opened Naming
  import opened Ddl

  /** The column type a field's declared type maps to; anything unrecognised, or a missing type, is text. */
  function ColumnTypeOf(kind: Option<string>): (t: ColumnType)
    ensures t == Integer <==> kind == Some("number")
    ensures t == Boolean <==> kind == Some("boolean")
    ensures t == Timestamp <==> kind == Some("date")
    ensures t == Uuid <==> kind == Some("uuid")
    ensures t == Text <==> kind !in {Some("number"), Some("boolean"), Some("date"), Some("uuid")}
  {
    match kind
    case Some("string") | Some("text") => Text
    case Some("number") => Integer
    case Some("boolean") => Boolean
    case Some("date") => Timestamp
    case Some("uuid") => Uuid
    case _ => Text
  }

  const IdColumn: Column := Column("id", Uuid, false, false, true, Some(GenRandomUuid))
  const CreatedAtColumn: Column := Column("created_at", Timestamp, false, false, false, Some(Now))
  const UpdatedAtColumn: Column := Column("updated_at", Timestamp, false, false, false, Some(Now))

  /** The plain column a field gets in pass 1; a relation adds nothing here. */
  function FieldColumn(f: FieldSpec): Column {
    Column(f.name, ColumnTypeOf(f.kind), f.required, f.unique, false, None)
  }

  /** The columns of a newly created table: the three fixed columns, then one per field in order. */
  function ColumnsOf(fields: seq<FieldSpec>): (cols: seq<Column>)
    ensures |cols| == 3 + |fields|
    ensures cols[0].name == "id" && cols[0].colType == Uuid && cols[0].primary
            && cols[0].default == Some(GenRandomUuid)
    ensures cols[1].name == "created_at" && cols[1].colType == Timestamp && cols[1].default == Some(Now)
    ensures cols[2].name == "updated_at" && cols[2].colType == Timestamp && cols[2].default == Some(Now)
    ensures forall i :: 0 <= i < |fields| ==>
      && cols[3 + i].name == fields[i].name
      && cols[3 + i].colType == ColumnTypeOf(fields[i].kind)
      && (cols[3 + i].notNull <==> fields[i].required)
      && (cols[3 + i].unique <==> fields[i].unique)
      && !cols[3 + i].primary
      && cols[3 + i].default == None
  {
    [IdColumn, CreatedAtColumn, UpdatedAtColumn] + seq(|fields|, i requires 0 <= i < |fields| => FieldColumn(fields[i]))
  }

  /** The operation creating schema table `t` under `prefix`. */
  function CreateOf(prefix: string, t: TableSpec): DdlOp {
    CreateTable(TableName(prefix, t.name), ColumnsOf(t.fields))
  }

  /** Every physical table name a schema asks for. */
  function PhysicalNames(prefix: string, tables: seq<TableSpec>): set<string> {
    set t | t in tables :: TableName(prefix, t.name)
  }

  /** Pass 1: create each table whose physical name the catalog does not hold yet. */
  function CreatePass(prefix: string, tables: seq<TableSpec>, c: Catalog): (ops: seq<DdlOp>)
    ensures forall op :: op in ops ==> op.CreateTable? && op.name !in c.tables
    ensures forall i, j :: 0 <= i < j < |ops| ==> ops[i].name != ops[j].name
    decreases |tables|
  {
    if tables == [] then []
    else
      var t := tables[0];
      if TableName(prefix, t.name) in c.tables then
        CreatePass(prefix, tables[1..], c)
      else
        var op := CreateOf(prefix, t);
        [op] + CreatePass(prefix, tables[1..], Apply(c, op))
  }

  /** The foreign key a field asks for, if it is a `belongsTo` field of physical table `tableName`. */
  function ForeignKeyOf(prefix: string, tableName: string, f: FieldSpec): Option<DdlOp> {
    if IsBelongsTo(f) then
      Some(AddForeignKey(tableName, f.name, ForeignKeyName(tableName, f.name),
                         TableName(prefix, f.relation.value.table), f.relation.value.column, SetNull))
    else None
  }

  /** Every foreign-key constraint name the fields of one physical table ask for. */
  function FieldKeyNames(tableName: string, fields: seq<FieldSpec>): set<string> {
    set f | f in fields && IsBelongsTo(f) :: ForeignKeyName(tableName, f.name)
  }

  /** Every foreign-key constraint name a schema asks for. */
  function ForeignKeyNames(prefix: string, tables: seq<TableSpec>): set<string> {
    set t, f | t in tables && f in t.fields && IsBelongsTo(f) :: ForeignKeyName(TableName(prefix, t.name), f.name)
  }

  /** Pass 2 over the fields of one table: add each missing `belongsTo` foreign key. */
  function FieldsKeyPass(prefix: string, tableName: string, fields: seq<FieldSpec>, c: Catalog): (ops: seq<DdlOp>)
    ensures forall op :: op in ops ==> op.AddForeignKey? && op.fkName !in c.constraints
    ensures forall i, j :: 0 <= i < j < |ops| ==> ops[i].fkName != ops[j].fkName
    decreases |fields|
  {
    if fields == [] then []
    else
      match ForeignKeyOf(prefix, tableName, fields[0])
      case None => FieldsKeyPass(prefix, tableName, fields[1..], c)
      case Some(op) =>
        if op.fkName in c.constraints then FieldsKeyPass(prefix, tableName, fields[1..], c)
        else [op] + FieldsKeyPass(prefix, tableName, fields[1..], Apply(c, op))
  }

  /** Pass 2: the foreign keys of every table, table by table. */
  function KeyPass(prefix: string, tables: seq<TableSpec>, c: Catalog): (ops: seq<DdlOp>)
    ensures forall op :: op in ops ==> op.AddForeignKey? && op.fkName !in c.constraints
    ensures forall i, j :: 0 <= i < j < |ops| ==> ops[i].fkName != ops[j].fkName
    decreases |tables|
  {
    if tables == [] then []
    else
      var here := FieldsKeyPass(prefix, TableName(prefix, tables[0].name), tables[0].fields, c);
      var rest := KeyPass(prefix, tables[1..], ApplyAll(c, here));
      KeyPassConcat(c, here, rest);
      here + rest
  }

  /** The keys of one table followed by keys missing after them stay missing from `c` and distinct. */
  lemma KeyPassConcat(c: Catalog, here: seq<DdlOp>, rest: seq<DdlOp>)
    requires forall op :: op in here ==> op.AddForeignKey? && op.fkName !in c.constraints
    requires forall i, j :: 0 <= i < j < |here| ==> here[i].fkName != here[j].fkName
    requires forall op :: op in rest ==> op.AddForeignKey? && op.fkName !in ApplyAll(c, here).constraints
    requires forall i, j :: 0 <= i < j < |rest| ==> rest[i].fkName != rest[j].fkName
    ensures forall op :: op in here + rest ==> op.AddForeignKey? && op.fkName !in c.constraints
    ensures forall i, j :: 0 <= i < j < |here + rest| ==> (here + rest)[i].fkName != (here + rest)[j].fkName
  {
    var ops := here + rest;
    ApplyAllEffect(c, here);
    forall i, j | 0 <= i < j < |ops|
      ensures ops[i].fkName != ops[j].fkName
    {
      if j < |here| {
        assert ops[i] == here[i] && ops[j] == here[j];
      } else if i >= |here| {
        assert ops[i] == rest[i - |here|] && ops[j] == rest[j - |here|];
      } else {
        assert ops[i] == here[i] && ops[i] in here;
        assert ops[i].fkName in AddedConstraints(here);
        assert ops[j] == rest[j - |here|] && ops[j] in rest;
      }
    }
  }

  /**
    The whole plan: pass 1 against the given catalog, then pass 2 against the
    catalog pass 1 leaves behind. No foreign key ever comes before a creation.
   */
  function Plan(slug: string, tables: seq<TableSpec>, c: Catalog): (ops: seq<DdlOp>)
    ensures forall i, j :: 0 <= i < j < |ops| ==> !(ops[i].AddForeignKey? && ops[j].CreateTable?)
  {
    var prefix := Underscored(slug);
    var creates := CreatePass(prefix, tables, c);
    var keys := KeyPass(prefix, tables, ApplyAll(c, creates));
    OrderedConcat(creates, keys);
    creates + keys
  }

  /** Creations followed by foreign keys never put a foreign key before a creation. */
  lemma OrderedConcat(creates: seq<DdlOp>, keys: seq<DdlOp>)
    requires forall op :: op in creates ==> op.CreateTable?
    requires forall op :: op in keys ==> op.AddForeignKey?
    ensures forall i, j :: 0 <= i < j < |creates + keys| ==>
      !((creates + keys)[i].AddForeignKey? && (creates + keys)[j].CreateTable?)
  {
    var ops := creates + keys;
    forall i, j | 0 <= i < j < |ops|
      ensures !(ops[i].AddForeignKey? && ops[j].CreateTable?)
    {
      if i < |creates| {
        assert ops[i] == creates[i];
        assert ops[i] in creates;
      } else {
        assert ops[j] == keys[j - |creates|];
        assert ops[j] in keys;
      }
    }
  }
}

=== FILE: planner_proofs.dfy ===
/**
  Properties of the planner that relate several calls or need induction:
  which tables and keys the plan creates, that a foreign key is only added to
  a table that already exists, and that planning again after applying a plan
  yields nothing.
 */
module PlannerProofs {
  import opened Options
  import opened Schema
  import opened Naming
  import opened Ddl
  import opened Planner

  lemma NoKeysAmongCreates(ops: seq<DdlOp>)
    requires forall op :: op in ops ==> op.CreateTable?
    ensures AddedConstraints(ops) == {}
  {
  }

  lemma NoCreatesAmongKeys(ops: seq<DdlOp>)
    requires forall op :: op in ops ==> op.AddForeignKey?
    ensures CreatedTables(ops) == {}
  {
  }

  /** Pass 1 creates exactly the schema's physical tables the catalog lacks. */
  lemma {:induction false} CreatePassEffect(prefix: string, tables: seq<TableSpec>, c: Catalog)
    ensures CreatedTables(CreatePass(prefix, tables, c)) == PhysicalNames(prefix, tables) - c.tables
    decreases |tables|
  {
    if tables != [] {
      var t := tables[0];
      var name := TableName(prefix, t.name);
      assert PhysicalNames(prefix, tables) == {name} + PhysicalNames(prefix, tables[1..]) by {
        assert forall u :: u in tables <==> u == t || u in tables[1..];
      }
      if name in c.tables {
        CreatePassEffect(prefix, tables[1..], c);
      } else {
        var op := CreateOf(prefix, t);
        var rest := CreatePass(prefix, tables[1..], Apply(c, op));
        CreatePassEffect(prefix, tables[1..], Apply(c, op));
        assert CreatedTables([op] + rest) == {op.name} + CreatedTables(rest) by {
          assert forall o :: o in [op] + rest <==> o == op || o in rest;
        }
      }
    }
  }

  /** Pass 2 over one table adds exactly the constraint names its fields ask for that the catalog lacks. */
  lemma {:induction false} FieldsKeyPassEffect(prefix: string, tableName: string, fields: seq<FieldSpec>, c: Catalog)
    ensures AddedConstraints(FieldsKeyPass(prefix, tableName, fields, c)) == FieldKeyNames(tableName, fields) - c.constraints
    decreases |fields|
  {
    if fields != [] {
      var f := fields[0];
      assert forall g :: g in fields <==> g == f || g in fields[1..];
      match ForeignKeyOf(prefix, tableName, f)
      case None =>
        assert FieldKeyNames(tableName, fields) == FieldKeyNames(tableName, fields[1..]);
        FieldsKeyPassEffect(prefix, tableName, fields[1..], c);
      case Some(op) =>
        assert FieldKeyNames(tableName, fields) == {op.fkName} + FieldKeyNames(tableName, fields[1..]);
        if op.fkName in c.constraints {
          FieldsKeyPassEffect(prefix, tableName, fields[1..], c);
        } else {
          var rest := FieldsKeyPass(prefix, tableName, fields[1..], Apply(c, op));
          FieldsKeyPassEffect(prefix, tableName, fields[1..], Apply(c, op));
          assert AddedConstraints([op] + rest) == {op.fkName} + AddedConstraints(rest) by {
            assert forall o :: o in [op] + rest <==> o == op || o in rest;
          }
        }
    }
  }

  /** Pass 2 adds exactly the schema's `belongsTo` constraint names the catalog lacks. */
  lemma {:induction false} KeyPassEffect(prefix: string, tables: seq<TableSpec>, c: Catalog)
    ensures AddedConstraints(KeyPass(prefix, tables, c)) == ForeignKeyNames(prefix, tables) - c.constraints
    decreases |tables|
  {
    if tables != [] {
      var t := tables[0];
      var tableName := TableName(prefix, t.name);
      var here := FieldsKeyPass(prefix, tableName, t.fields, c);
      var rest := KeyPass(prefix, tables[1..], ApplyAll(c, here));
      FieldsKeyPassEffect(prefix, tableName, t.fields, c);
      KeyPassEffect(prefix, tables[1..], ApplyAll(c, here));
      ApplyAllEffect(c, here);
      assert ForeignKeyNames(prefix, tables) == FieldKeyNames(tableName, t.fields) + ForeignKeyNames(prefix, tables[1..]) by {
        assert forall u :: u in tables <==> u == t || u in tables[1..];
      }
      assert AddedConstraints(here + rest) == AddedConstraints(here) + AddedConstraints(rest) by {
        assert forall o :: o in here + rest <==> o in here || o in rest;
      }
    }
  }

  /** Every foreign key of one table's pass comes from one of its fields. */
  lemma {:induction false} FieldsKeyPassFrom(prefix: string, tableName: string, fields: seq<FieldSpec>, c: Catalog)
    ensures forall op :: op in FieldsKeyPass(prefix, tableName, fields, c) ==>
      exists f :: f in fields && ForeignKeyOf(prefix, tableName, f) == Some(op)
    decreases |fields|
  {
    if fields != [] {
      var f := fields[0];
      assert forall g :: g in fields[1..] ==> g in fields;
      match ForeignKeyOf(prefix, tableName, f)
      case None =>
        FieldsKeyPassFrom(prefix, tableName, fields[1..], c);
      case Some(op) =>
        if op.fkName in c.constraints {
          FieldsKeyPassFrom(prefix, tableName, fields[1..], c);
        } else {
          FieldsKeyPassFrom(prefix, tableName, fields[1..], Apply(c, op));
        }
    }
  }

  /** Every foreign key of pass 2 comes from a field of a schema table. */
  lemma {:induction false} KeyPassFrom(prefix: string, tables: seq<TableSpec>, c: Catalog)
    ensures forall op :: op in KeyPass(prefix, tables, c) ==>
      exists t, f :: t in tables && f in t.fields && ForeignKeyOf(prefix, TableName(prefix, t.name), f) == Some(op)
    decreases |tables|
  {
    if tables != [] {
      var t := tables[0];
      var tableName := TableName(prefix, t.name);
      var here := FieldsKeyPass(prefix, tableName, t.fields, c);
      FieldsKeyPassFrom(prefix, tableName, t.fields, c);
      KeyPassFrom(prefix, tables[1..], ApplyAll(c, here));
      assert forall u :: u in tables[1..] ==> u in tables;
      assert t in tables;
    }
  }

  /** The plan is pass 1 followed by pass 2, and each operation kind comes from its own pass. */
  lemma PlanParts(slug: string, tables: seq<TableSpec>, c: Catalog)
    ensures var prefix := Underscored(slug);
      var creates := CreatePass(prefix, tables, c);
      var keys := KeyPass(prefix, tables, ApplyAll(c, creates));
      var ops := Plan(slug, tables, c);
      && ops == creates + keys
      && (forall op :: op in ops && op.CreateTable? ==> op in creates)
      && (forall op :: op in ops && op.AddForeignKey? ==> op in keys)
      && (forall k :: 0 <= k < |ops| && ops[k].AddForeignKey? ==> |creates| <= k)
      && (forall k :: 0 <= k < |ops| && ops[k].CreateTable? ==> k < |creates|)
  {
    var prefix := Underscored(slug);
    var creates := CreatePass(prefix, tables, c);
    var keys := KeyPass(prefix, tables, ApplyAll(c, creates));
    SplitByKind(creates, keys);
  }

  lemma SplitByKind(creates: seq<DdlOp>, keys: seq<DdlOp>)
    requires forall op :: op in creates ==> op.CreateTable?
    requires forall op :: op in keys ==> op.AddForeignKey?
    ensures forall op :: op in creates + keys && op.CreateTable? ==> op in creates
    ensures forall op :: op in creates + keys && op.AddForeignKey? ==> op in keys
    ensures forall k :: 0 <= k < |creates + keys| && (creates + keys)[k].AddForeignKey? ==> |creates| <= k
    ensures forall k :: 0 <= k < |creates + keys| && (creates + keys)[k].CreateTable? ==> k < |creates|
  {
    var ops := creates + keys;
    forall op | op in ops
      ensures op in creates || op in keys
    {
    }
    forall k | 0 <= k < |creates| 
      ensures ops[k].CreateTable?
    {
      assert ops[k] == creates[k];
      assert creates[k] in creates;
    }
    forall k | |creates| <= k < |ops|
      ensures ops[k].AddForeignKey?
    {
      assert ops[k] == keys[k - |creates|];
      assert keys[k - |creates|] in keys;
    }
  }

  /**
    Applying the plan leaves the catalog holding every physical table and
    every `belongsTo` constraint name of the schema, and nothing else new.
   */
  lemma PlanEffect(slug: string, tables: seq<TableSpec>, c: Catalog)
    ensures ApplyAll(c, Plan(slug, tables, c))
      == Catalog(c.tables + PhysicalNames(Underscored(slug), tables),
                 c.constraints + ForeignKeyNames(Underscored(slug), tables))
  {
    var prefix := Underscored(slug);
    var creates := CreatePass(prefix, tables, c);
    var mid := ApplyAll(c, creates);
    var keys := KeyPass(prefix, tables, mid);
    CreatePassEffect(prefix, tables, c);
    KeyPassEffect(prefix, tables, mid);
    NoKeysAmongCreates(creates);
    NoCreatesAmongKeys(keys);
    ApplyAllEffect(c, creates);
    ApplyAllEffect(mid, keys);
    assert mid.tables == c.tables + PhysicalNames(prefix, tables);
    assert mid.constraints == c.constraints;
    ApplyAllAppend(c, creates, keys);
  }

  /**
    When several schema tables share a physical name, the first one not
    already in the catalog supplies the columns; later ones are skipped.
   */
  lemma {:induction false} CreatePassFirstWins(prefix: string, tables: seq<TableSpec>, c: Catalog)
    ensures forall op :: op in CreatePass(prefix, tables, c) ==>
      exists i :: 0 <= i < |tables| && op == CreateOf(prefix, tables[i])
        && forall j :: 0 <= j < i ==> TableName(prefix, tables[j].name) != op.name
    decreases |tables|
  {
    if tables != [] {
      var t := tables[0];
      var name := TableName(prefix, t.name);
      var ops := CreatePass(prefix, tables, c);
      if name in c.tables {
        CreatePassFirstWins(prefix, tables[1..], c);
        forall op | op in ops
          ensures exists i :: (0 <= i < |tables| && op == CreateOf(prefix, tables[i])
            && forall j :: 0 <= j < i ==> TableName(prefix, tables[j].name) != op.name)
        {
          var i :| 0 <= i < |tables[1..]| && op == CreateOf(prefix, tables[1..][i])
            && forall j :: 0 <= j < i ==> TableName(prefix, tables[1..][j].name) != op.name;
          assert op == CreateOf(prefix, tables[i + 1]);
          forall j | 0 <= j < i + 1
            ensures TableName(prefix, tables[j].name) != op.name
          {
            if j > 0 {
              assert tables[j] == tables[1..][j - 1];
            }
          }
        }
      } else {
        var op0 := CreateOf(prefix, t);
        CreatePassFirstWins(prefix, tables[1..], Apply(c, op0));
        forall op | op in ops
          ensures exists i :: (0 <= i < |tables| && op == CreateOf(prefix, tables[i])
            && forall j :: 0 <= j < i ==> TableName(prefix, tables[j].name) != op.name)
        {
          if op == op0 {
            assert op == CreateOf(prefix, tables[0]);
          } else {
            assert op in CreatePass(prefix, tables[1..], Apply(c, op0));
            var i :| 0 <= i < |tables[1..]| && op == CreateOf(prefix, tables[1..][i])
              && forall j :: 0 <= j < i ==> TableName(prefix, tables[1..][j].name) != op.name;
            assert op == CreateOf(prefix, tables[i + 1]);
            forall j | 0 <= j < i + 1
              ensures TableName(prefix, tables[j].name) != op.name
            {
              if j > 0 {
                assert tables[j] == tables[1..][j - 1];
              }
            }
          }
        }
      }
    }
  }

  /**
    Pass 1 as seen in the whole plan: a table already in the catalog gets no
    create operation, every other schema table gets exactly one, named by the
    tenant prefix and carrying the columns of the first schema entry with that
    name.
   */
  lemma PlanCreates(slug: string, tables: seq<TableSpec>, c: Catalog)
    ensures var prefix := Underscored(slug); var ops := Plan(slug, tables, c);
      && (forall op :: op in ops && op.CreateTable? ==>
            && op.name !in c.tables
            && exists i :: 0 <= i < |tables| && op == CreateOf(prefix, tables[i])
                 && forall j :: 0 <= j < i ==> TableName(prefix, tables[j].name) != op.name)
      && (forall t :: t in tables && TableName(prefix, t.name) !in c.tables ==>
            exists op :: op in ops && op.CreateTable? && op.name == TableName(prefix, t.name))
      && (forall i, j :: 0 <= i < j < |ops| && ops[i].CreateTable? && ops[j].CreateTable? ==>
            ops[i].name != ops[j].name)
  {
    var prefix := Underscored(slug);
    var creates := CreatePass(prefix, tables, c);
    var keys := KeyPass(prefix, tables, ApplyAll(c, creates));
    var ops := Plan(slug, tables, c);
    PlanParts(slug, tables, c);
    CreatePassFirstWins(prefix, tables, c);
    CreatePassEffect(prefix, tables, c);
    forall t | t in tables && TableName(prefix, t.name) !in c.tables
      ensures exists op :: op in ops && op.CreateTable? && op.name == TableName(prefix, t.name)
    {
      var name := TableName(prefix, t.name);
      assert name in CreatedTables(creates);
      var op :| op in creates && op.CreateTable? && op.name == name;
      assert op in ops;
    }
    forall i, j | 0 <= i < j < |ops| && ops[i].CreateTable? && ops[j].CreateTable?
      ensures ops[i].name != ops[j].name
    {
      assert ops[i] == creates[i] && ops[j] == creates[j];
    }
  }

  /**
    Each foreign key of the plan comes from a `belongsTo` field, is missing
    from the catalog, is named `<table>_<field>_fkey`, and points at the
    relation's column in the prefixed target table with on-delete SET NULL.
   */
  lemma PlanForeignKeysFromBelongsTo(slug: string, tables: seq<TableSpec>, c: Catalog)
    ensures var prefix := Underscored(slug);
      forall op :: op in Plan(slug, tables, c) && op.AddForeignKey? ==>
        && op.fkName !in c.constraints
        && op.onDelete == SetNull
        && exists t, f :: t in tables && f in t.fields && IsBelongsTo(f)
             && op.table == TableName(prefix, t.name)
             && op.column == f.name
             && op.fkName == ForeignKeyName(op.table, f.name)
             && op.targetTable == TableName(prefix, f.relation.value.table)
             && op.targetColumn == f.relation.value.column
  {
    var prefix := Underscored(slug);
    var creates := CreatePass(prefix, tables, c);
    var mid := ApplyAll(c, creates);
    var keys := KeyPass(prefix, tables, mid);
    PlanParts(slug, tables, c);
    NoKeysAmongCreates(creates);
    ApplyAllEffect(c, creates);
    assert mid.constraints == c.constraints;
    KeyPassFrom(prefix, tables, mid);
    forall op | op in Plan(slug, tables, c) && op.AddForeignKey?
      ensures exists t, f :: t in tables && f in t.fields && IsBelongsTo(f)
                 && op.table == TableName(prefix, t.name)
                 && op.column == f.name
                 && op.fkName == ForeignKeyName(op.table, f.name)
                 && op.targetTable == TableName(prefix, f.relation.value.table)
                 && op.targetColumn == f.relation.value.column
    {
      assert op in keys;
      var t, f :| t in tables && f in t.fields && ForeignKeyOf(prefix, TableName(prefix, t.name), f) == Some(op);
    }
  }

  /** No constraint name is added twice, so each field yields at most one foreign key. */
  lemma PlanForeignKeysDistinct(slug: string, tables: seq<TableSpec>, c: Catalog)
    ensures var ops := Plan(slug, tables, c);
      forall i, j :: 0 <= i < j < |ops| && ops[i].AddForeignKey? && ops[j].AddForeignKey? ==>
        ops[i].fkName != ops[j].fkName
  {
    var prefix := Underscored(slug);
    var creates := CreatePass(prefix, tables, c);
    var keys := KeyPass(prefix, tables, ApplyAll(c, creates));
    KeysDistinctAfterCreates(creates, keys);
  }

  lemma KeysDistinctAfterCreates(creates: seq<DdlOp>, keys: seq<DdlOp>)
    requires forall op :: op in creates ==> op.CreateTable?
    requires forall op :: op in keys ==> op.AddForeignKey?
    requires forall i, j :: 0 <= i < j < |keys| ==> keys[i].fkName != keys[j].fkName
    ensures var ops := creates + keys;
      forall i, j :: 0 <= i < j < |ops| && ops[i].AddForeignKey? && ops[j].AddForeignKey? ==>
        ops[i].fkName != ops[j].fkName
  {
    var ops := creates + keys;
    SplitByKind(creates, keys);
    forall i, j | 0 <= i < j < |ops| && ops[i].AddForeignKey? && ops[j].AddForeignKey?
      ensures ops[i].fkName != ops[j].fkName
    {
      assert ops[i] == keys[i - |creates|] && ops[j] == keys[j - |creates|];
    }
  }

  /** Every `belongsTo` field whose constraint name the catalog lacks gets its foreign key. */
  lemma PlanForeignKeysComplete(slug: string, tables: seq<TableSpec>, c: Catalog)
    ensures var prefix := Underscored(slug);
      forall t, f :: (t in tables && f in t.fields && IsBelongsTo(f)
        && ForeignKeyName(TableName(prefix, t.name), f.name) !in c.constraints) ==>
        exists op :: op in Plan(slug, tables, c) && op.AddForeignKey?
          && op.fkName == ForeignKeyName(TableName(prefix, t.name), f.name)
  {
    var prefix := Underscored(slug);
    var creates := CreatePass(prefix, tables, c);
    var mid := ApplyAll(c, creates);
    var keys := KeyPass(prefix, tables, mid);
    PlanParts(slug, tables, c);
    NoKeysAmongCreates(creates);
    ApplyAllEffect(c, creates);
    assert mid.constraints == c.constraints;
    KeyPassEffect(prefix, tables, mid);
    forall t, f | (t in tables && f in t.fields && IsBelongsTo(f)
      && ForeignKeyName(TableName(prefix, t.name), f.name) !in c.constraints)
      ensures exists op :: (op in Plan(slug, tables, c) && op.AddForeignKey?
        && op.fkName == ForeignKeyName(TableName(prefix, t.name), f.name))
    {
      var name := ForeignKeyName(TableName(prefix, t.name), f.name);
      assert name in ForeignKeyNames(prefix, tables);
      assert name in AddedConstraints(keys);
      var op :| op in keys && op.AddForeignKey? && op.fkName == name;
      assert op in creates + keys;
    }
  }

  /**
    A foreign key is only ever added to a table that exists by the time it
    runs: every table of the schema exists once pass 1 is over.
   */
  lemma ForeignKeysFollowTheirTables(slug: string, tables: seq<TableSpec>, c: Catalog)
    ensures var ops := Plan(slug, tables, c);
      forall k :: 0 <= k < |ops| && ops[k].AddForeignKey? ==> ops[k].table in ApplyAll(c, ops[..k]).tables
  {
    var prefix := Underscored(slug);
    var creates := CreatePass(prefix, tables, c);
    var keys := KeyPass(prefix, tables, ApplyAll(c, creates));
    var ops := Plan(slug, tables, c);
    PlanParts(slug, tables, c);
    KeyPassFrom(prefix, tables, ApplyAll(c, creates));
    CreatePassEffect(prefix, tables, c);
    ApplyAllEffect(c, creates);
    forall k | 0 <= k < |ops| && ops[k].AddForeignKey?
      ensures ops[k].table in ApplyAll(c, ops[..k]).tables
    {
      var op := ops[k];
      assert op in keys;
      var t, f :| t in tables && f in t.fields && ForeignKeyOf(prefix, TableName(prefix, t.name), f) == Some(op);
      assert op.table in PhysicalNames(prefix, tables);
      assert op.table in ApplyAll(c, creates).tables;
      assert ops[..k] == creates + keys[..k - |creates|];
      TablesOnlyGrow(c, creates, keys[..k - |creates|]);
    }
  }

  /** Later operations never remove a table. */
  lemma TablesOnlyGrow(c: Catalog, a: seq<DdlOp>, b: seq<DdlOp>)
    ensures ApplyAll(c, a).tables <= ApplyAll(c, a + b).tables
  {
    ApplyAllAppend(c, a, b);
    ApplyAllEffect(ApplyAll(c, a), b);
  }

  /**
    The plan is empty exactly when the catalog already holds every table and
    every `belongsTo` constraint the schema asks for.
   */
  lemma PlanEmptyIffSatisfied(slug: string, tables: seq<TableSpec>, c: Catalog)
    ensures Plan(slug, tables, c) == [] <==>
      PhysicalNames(Underscored(slug), tables) <= c.tables
      && ForeignKeyNames(Underscored(slug), tables) <= c.constraints
  {
    var prefix := Underscored(slug);
    PlanEffect(slug, tables, c);
    if PhysicalNames(prefix, tables) <= c.tables && ForeignKeyNames(prefix, tables) <= c.constraints {
      CreatePassNothingMissing(prefix, tables, c);
      assert ApplyAll(c, []) == c;
      KeyPassNothingMissing(prefix, tables, c);
    }
  }

  /** Pass 1 emits nothing when every physical table already exists. */
  lemma {:induction false} CreatePassNothingMissing(prefix: string, tables: seq<TableSpec>, c: Catalog)
    requires PhysicalNames(prefix, tables) <= c.tables
    ensures CreatePass(prefix, tables, c) == []
    decreases |tables|
  {
    if tables != [] {
      assert tables[0] in tables;
      assert PhysicalNames(prefix, tables[1..]) <= PhysicalNames(prefix, tables) by {
        assert forall u :: u in tables[1..] ==> u in tables;
      }
      CreatePassNothingMissing(prefix, tables[1..], c);
    }
  }

  /** Pass 2 over one table emits nothing when every key its fields ask for exists. */
  lemma {:induction false} FieldsKeyPassNothingMissing(prefix: string, tableName: string, fields: seq<FieldSpec>, c: Catalog)
    requires FieldKeyNames(tableName, fields) <= c.constraints
    ensures FieldsKeyPass(prefix, tableName, fields, c) == []
    decreases |fields|
  {
    if fields != [] {
      assert fields[0] in fields;
      assert FieldKeyNames(tableName, fields[1..]) <= FieldKeyNames(tableName, fields) by {
        assert forall g :: g in fields[1..] ==> g in fields;
      }
      FieldsKeyPassNothingMissing(prefix, tableName, fields[1..], c);
    }
  }

  /** Pass 2 emits nothing when every key the schema asks for exists. */
  lemma {:induction false} KeyPassNothingMissing(prefix: string, tables: seq<TableSpec>, c: Catalog)
    requires ForeignKeyNames(prefix, tables) <= c.constraints
    ensures KeyPass(prefix, tables, c) == []
    decreases |tables|
  {
    if tables != [] {
      var t := tables[0];
      assert t in tables;
      assert FieldKeyNames(TableName(prefix, t.name), t.fields) <= ForeignKeyNames(prefix, tables);
      FieldsKeyPassNothingMissing(prefix, TableName(prefix, t.name), t.fields, c);
      assert ApplyAll(c, []) == c;
      assert ForeignKeyNames(prefix, tables[1..]) <= ForeignKeyNames(prefix, tables) by {
        assert forall u :: u in tables[1..] ==> u in tables;
      }
      KeyPassNothingMissing(prefix, tables[1..], c);
    }
  }

  /** Provisioning twice is harmless: planning against the catalog a plan left behind yields no operation. */
  lemma PlanIdempotent(slug: string, tables: seq<TableSpec>, c: Catalog)
    ensures Plan(slug, tables, ApplyAll(c, Plan(slug, tables, c))) == []
  {
    PlanEffect(slug, tables, c);
    PlanEmptyIffSatisfied(slug, tables, ApplyAll(c, Plan(slug, tables, c)));
  }

  /**
    Constraint names are not injective: table `a_b` with field `c` and table
    `a` with field `b_c` both name their key `<prefix>_a_b_c_fkey`, so once
    both tables exist the plan adds only the first key and the second field
    never gets one.
   */
  lemma ForeignKeyNamesCollide()
    ensures Plan("shop", CollidingTables(), Catalog({"shop_a_b", "shop_a"}, {}))
      == [AddForeignKey("shop_a_b", "c", "shop_a_b_c_fkey", "shop_owners", "id", SetNull)]
  {
    var c := Catalog({"shop_a_b", "shop_a"}, {});
    assert Underscored("shop") == "shop";
    CollidingTablesExist(c);
    assert ApplyAll(c, []) == c;
    CollidingKeys(c);
  }

  /** Two schema tables whose `belongsTo` fields get the same constraint name. */
  function CollidingTables(): seq<TableSpec> {
    var link := Some(RelationSpec(Some(BelongsTo), "owners", "id"));
    [TableSpec("a_b", [FieldSpec("c", Some("uuid"), false, false, link)]),
     TableSpec("a", [FieldSpec("b_c", Some("uuid"), false, false, link)])]
  }

  lemma CollidingTablesExist(c: Catalog)
    requires c.tables == {"shop_a_b", "shop_a"}
    ensures CreatePass("shop", CollidingTables(), c) == []
  {
    var tables := CollidingTables();
    assert TableName("shop", "a_b") == "shop_a_b" && TableName("shop", "a") == "shop_a";
    assert tables[1..] == [tables[1]] && [tables[1]][1..] == [];
    assert CreatePass("shop", [tables[1]], c) == CreatePass("shop", [], c);
  }

  lemma CollidingKeys(c: Catalog)
    requires c.constraints == {}
    ensures KeyPass("shop", CollidingTables(), c)
      == [AddForeignKey("shop_a_b", "c", "shop_a_b_c_fkey", "shop_owners", "id", SetNull)]
  {
    var tables := CollidingTables();
    var k1 := AddForeignKey("shop_a_b", "c", "shop_a_b_c_fkey", "shop_owners", "id", SetNull);
    assert TableName("shop", "a_b") == "shop_a_b";
    FirstTableKeys(c);
    var c2 := ApplyAll(c, [k1]);
    assert [k1][1..] == [];
    assert c2 == ApplyAll(Apply(c, k1), []);
    SecondTableKeys(c2);
    assert tables[1..] == [tables[1]];
  }

  lemma FirstTableKeys(c: Catalog)
    requires c.constraints == {}
    ensures FieldsKeyPass("shop", "shop_a_b", CollidingTables()[0].fields, c)
      == [AddForeignKey("shop_a_b", "c", "shop_a_b_c_fkey", "shop_owners", "id", SetNull)]
  {
    var f1 := CollidingTables()[0].fields[0];
    var k1 := ForeignKeyOf("shop", "shop_a_b", f1).value;
    assert ForeignKeyName("shop_a_b", "c") == "shop_a_b_c_fkey";
    assert TableName("shop", "owners") == "shop_owners";
    assert k1 == AddForeignKey("shop_a_b", "c", "shop_a_b_c_fkey", "shop_owners", "id", SetNull);
    assert [f1][1..] == [];
  }

  lemma SecondTableKeys(c: Catalog)
    requires "shop_a_b_c_fkey" in c.constraints
    ensures KeyPass("shop", [CollidingTables()[1]], c) == []
  {
    var t2 := CollidingTables()[1];
    var f2 := t2.fields[0];
    assert TableName("shop", "a") == "shop_a";
    assert ForeignKeyName("shop_a", "b_c") == "shop_a_b_c_fkey";
    assert [f2][1..] == [];
    assert FieldsKeyPass("shop", "shop_a", [f2], c) == FieldsKeyPass("shop", "shop_a", [], c);
    assert ApplyAll(c, []) == c;
    assert [t2][1..] == [];
  }
}

=== FILE: schema.dfy ===
/**
  The JSON schema a tenant submits to /deployTables: a list of tables, each a
  list of fields, where a field may carry a relation descriptor.
  Names are strings. A field's `type`, its `relation` and the relation's
  `type` may be absent (`None`); `required` and `unique` hold their
  JavaScript truthiness.
 */
module Schema {
  import opened Options

  /** `{ type, table, column }`: `kind` is the descriptor's `type` property. */
  datatype RelationSpec = RelationSpec(kind: Option<string>, table: string, column: string)

  datatype FieldSpec = FieldSpec(
    name: string,
    kind: Option<string>,
    required: bool,
    unique: bool,
    relation: Option<RelationSpec>)

  datatype TableSpec = TableSpec(name: string, fields: seq<FieldSpec>)

  const BelongsTo: string := "belongsTo"

  /** A field that asks for a foreign key: its relation's type is exactly "belongsTo". */
  predicate IsBelongsTo(f: FieldSpec) {
    f.relation.Some? && f.relation.value.kind == Some(BelongsTo)
  }
}

=== FILE: trace.dfy ===
/**
  Everything the route asks of the database, in order. Before it may issue
  a DDL operation it runs an existence query: `hasTable` for each schema
  table in pass 1, a `pg_constraint` count for each `belongsTo` field in
  pass 2. The answer decides whether the operation follows. Which steps the
  trace holds depends only on the catalog, so it is computed like the plan;
  whether the database carries a step out is left to the runner.
 */
module Trace {
  import opened Options
  import opened Schema
  import opened Naming
  import opened Ddl
  import opened Planner

  datatype Query = HasTable(name: string) | HasConstraint(name: string)

  datatype Step = Ask(query: Query) | Issue(op: DdlOp)

  /** The DDL operations of a trace, in order. */
  function Issued(steps: seq<Step>): seq<DdlOp>
    decreases |steps|
  {
    if steps == [] then []
    else (if steps[0].Issue? then [steps[0].op] else []) + Issued(steps[1..])
  }

  /** The existence queries of a trace, in order. */
  function Asked(steps: seq<Step>): seq<Query>
    decreases |steps|
  {
    if steps == [] then []
    else (if steps[0].Ask? then [steps[0].query] else []) + Asked(steps[1..])
  }

  /** The constraint names a trace asks about. */
  function AskedConstraints(steps: seq<Step>): set<string> {
    set s | s in steps && s.Ask? && s.query.HasConstraint? :: s.query.name
  }

  /** The query that reports whether `op` has already been carried out. */
  function GuardOf(op: DdlOp): Query {
    match op
    case CreateTable(name, _) => HasTable(name)
    case AddForeignKey(_, _, fkName, _, _, _) => HasConstraint(fkName)
  }

  /** Every operation of the trace comes straight after the query about its own name. */
  predicate Guarded(steps: seq<Step>) {
    forall k :: 0 <= k < |steps| && steps[k].Issue? ==> 0 < k && steps[k - 1] == Ask(GuardOf(steps[k].op))
  }

  lemma {:induction false} IssuedAppend(a: seq<Step>, b: seq<Step>)
    ensures Issued(a + b) == Issued(a) + Issued(b)
    decreases |a|
  {
    if a == [] {
      assert a + b == b;
    } else {
      assert (a + b)[0] == a[0];
      assert (a + b)[1..] == a[1..] + b;
      IssuedAppend(a[1..], b);
    }
  }

  lemma {:induction false} AskedAppend(a: seq<Step>, b: seq<Step>)
    ensures Asked(a + b) == Asked(a) + Asked(b)
    decreases |a|
  {
    if a == [] {
      assert a + b == b;
    } else {
      assert (a + b)[0] == a[0];
      assert (a + b)[1..] == a[1..] + b;
      AskedAppend(a[1..], b);
    }
  }

  lemma GuardedAppend(a: seq<Step>, b: seq<Step>)
    requires Guarded(a) && Guarded(b)
    ensures Guarded(a + b)
  {
    var s := a + b;
    forall k | 0 <= k < |s| && s[k].Issue?
      ensures 0 < k && s[k - 1] == Ask(GuardOf(s[k].op))
    {
      if k < |a| {
        assert s[k] == a[k] && s[k - 1] == a[k - 1];
      } else {
        assert s[k] == b[k - |a|];
        assert s[k - 1] == b[k - 1 - |a|];
      }
    }
  }

  /** Pass 1 as the route runs it: ask whether each physical table exists; create it when it does not. */
  function CreateTrace(prefix: string, tables: seq<TableSpec>, c: Catalog): seq<Step>
    decreases |tables|
  {
    if tables == [] then []
    else
      var name := TableName(prefix, tables[0].name);
      if name in c.tables then
        [Ask(HasTable(name))] + CreateTrace(prefix, tables[1..], c)
      else
        var op := CreateOf(prefix, tables[0]);
        [Ask(HasTable(name)), Issue(op)] + CreateTrace(prefix, tables[1..], Apply(c, op))
  }

  /** Pass 2 over one table: ask about each `belongsTo` constraint name; add the foreign key when it is missing. */
  function FieldsKeyTrace(prefix: string, tableName: string, fields: seq<FieldSpec>, c: Catalog): seq<Step>
    decreases |fields|
  {
    if fields == [] then []
    else
      match ForeignKeyOf(prefix, tableName, fields[0])
      case None => FieldsKeyTrace(prefix, tableName, fields[1..], c)
      case Some(op) =>
        if op.fkName in c.constraints then
          [Ask(HasConstraint(op.fkName))] + FieldsKeyTrace(prefix, tableName, fields[1..], c)
        else
          [Ask(HasConstraint(op.fkName)), Issue(op)] + FieldsKeyTrace(prefix, tableName, fields[1..], Apply(c, op))
  }

  /** Pass 2: the constraint queries and foreign keys of every table, table by table. */
  function KeyTrace(prefix: string, tables: seq<TableSpec>, c: Catalog): seq<Step>
    decreases |tables|
  {
    if tables == [] then []
    else
      var here := FieldsKeyTrace(prefix, TableName(prefix, tables[0].name), tables[0].fields, c);
      here + KeyTrace(prefix, tables[1..], ApplyAll(c, Issued(here)))
  }

  /** The whole conversation of `createTablesWithKnex` with the database, pass 1 then pass 2. */
  function RouteTrace(slug: string, tables: seq<TableSpec>, c: Catalog): seq<Step> {
    var prefix := Underscored(slug);
    var creates := CreateTrace(prefix, tables, c);
    creates + KeyTrace(prefix, tables, ApplyAll(c, Issued(creates)))
  }

  /** The operations pass 1's trace issues are pass 1's plan. */
  lemma {:induction false} CreateTraceIssues(prefix: string, tables: seq<TableSpec>, c: Catalog)
    ensures Issued(CreateTrace(prefix, tables, c)) == CreatePass(prefix, tables, c)
    decreases |tables|
  {
    if tables != [] {
      var name := TableName(prefix, tables[0].name);
      if name in c.tables {
        var rest := CreateTrace(prefix, tables[1..], c);
        CreateTraceIssues(prefix, tables[1..], c);
        assert ([Ask(HasTable(name))] + rest)[1..] == rest;
      } else {
        var op := CreateOf(prefix, tables[0]);
        var rest := CreateTrace(prefix, tables[1..], Apply(c, op));
        CreateTraceIssues(prefix, tables[1..], Apply(c, op));
        IssuedAppend([Ask(HasTable(name)), Issue(op)], rest);
        assert [Ask(HasTable(name)), Issue(op)][1..] == [Issue(op)];
        assert Issued([Issue(op)]) == [op] by {
          assert [Issue(op)][1..] == [];
        }
      }
    }
  }

  /** The operations one table's pass-2 trace issues are that table's pass-2 plan. */
  lemma {:induction false} FieldsKeyTraceIssues(prefix: string, tableName: string, fields: seq<FieldSpec>, c: Catalog)
    ensures Issued(FieldsKeyTrace(prefix, tableName, fields, c)) == FieldsKeyPass(prefix, tableName, fields, c)
    decreases |fields|
  {
    if fields != [] {
      match ForeignKeyOf(prefix, tableName, fields[0])
      case None =>
        FieldsKeyTraceIssues(prefix, tableName, fields[1..], c);
      case Some(op) =>
        var q := HasConstraint(op.fkName);
        if op.fkName in c.constraints {
          var rest := FieldsKeyTrace(prefix, tableName, fields[1..], c);
          FieldsKeyTraceIssues(prefix, tableName, fields[1..], c);
          assert ([Ask(q)] + rest)[1..] == rest;
        } else {
          var rest := FieldsKeyTrace(prefix, tableName, fields[1..], Apply(c, op));
          FieldsKeyTraceIssues(prefix, tableName, fields[1..], Apply(c, op));
          IssuedAppend([Ask(q), Issue(op)], rest);
          assert [Ask(q), Issue(op)][1..] == [Issue(op)];
          assert Issued([Issue(op)]) == [op] by {
            assert [Issue(op)][1..] == [];
          }
        }
    }
  }

  /** The operations pass 2's trace issues are pass 2's plan. */
  lemma {:induction false} KeyTraceIssues(prefix: string, tables: seq<TableSpec>, c: Catalog)
    ensures Issued(KeyTrace(prefix, tables, c)) == KeyPass(prefix, tables, c)
    decreases |tables|
  {
    if tables != [] {
      var tableName := TableName(prefix, tables[0].name);
      var here := FieldsKeyTrace(prefix, tableName, tables[0].fields, c);
      FieldsKeyTraceIssues(prefix, tableName, tables[0].fields, c);
      KeyTraceIssues(prefix, tables[1..], ApplyAll(c, Issued(here)));
      IssuedAppend(here, KeyTrace(prefix, tables[1..], ApplyAll(c, Issued(here))));
    }
  }

  /** Leaving out the queries, the route issues exactly the plan. */
  lemma RouteTraceIssuesPlan(slug: string, tables: seq<TableSpec>, c: Catalog)
    ensures Issued(RouteTrace(slug, tables, c)) == Plan(slug, tables, c)
  {
    var prefix := Underscored(slug);
    var creates := CreateTrace(prefix, tables, c);
    CreateTraceIssues(prefix, tables, c);
    KeyTraceIssues(prefix, tables, ApplyAll(c, Issued(creates)));
    IssuedAppend(creates, KeyTrace(prefix, tables, ApplyAll(c, Issued(creates))));
  }

  /**
    Pass 1 asks about every schema table once, in schema order, whether or
    not it exists already, and about no constraint.
   */
  lemma {:induction false} CreateTraceAsks(prefix: string, tables: seq<TableSpec>, c: Catalog)
    ensures var qs := Asked(CreateTrace(prefix, tables, c));
      && |qs| == |tables|
      && forall i :: 0 <= i < |tables| ==> qs[i] == HasTable(TableName(prefix, tables[i].name))
    ensures forall s :: s in CreateTrace(prefix, tables, c) && s.Ask? ==> s.query.HasTable?
    decreases |tables|
  {
    if tables != [] {
      var name := TableName(prefix, tables[0].name);
      var next := if name in c.tables then c else Apply(c, CreateOf(prefix, tables[0]));
      var head := if name in c.tables then [Ask(HasTable(name))]
                  else [Ask(HasTable(name)), Issue(CreateOf(prefix, tables[0]))];
      var rest := CreateTrace(prefix, tables[1..], next);
      assert CreateTrace(prefix, tables, c) == head + rest;
      CreateTraceAsks(prefix, tables[1..], next);
      AskedAppend(head, rest);
      assert forall s :: s in head + rest ==> s in head || s in rest;
      assert Asked(head) == [HasTable(name)] by {
        if name !in c.tables {
          assert head[1..] == [Issue(CreateOf(prefix, tables[0]))];
          assert head[1..][1..] == [];
        } else {
          assert head[1..] == [];
        }
      }
    }
  }

  /** One table's pass 2 asks about exactly the constraint names of its `belongsTo` fields, and about no table. */
  lemma {:induction false} FieldsKeyTraceAsks(prefix: string, tableName: string, fields: seq<FieldSpec>, c: Catalog)
    ensures AskedConstraints(FieldsKeyTrace(prefix, tableName, fields, c)) == FieldKeyNames(tableName, fields)
    ensures forall s :: s in FieldsKeyTrace(prefix, tableName, fields, c) && s.Ask? ==> s.query.HasConstraint?
    decreases |fields|
  {
    if fields != [] {
      var f := fields[0];
      assert forall g :: g in fields <==> g == f || g in fields[1..];
      match ForeignKeyOf(prefix, tableName, f)
      case None =>
        assert FieldKeyNames(tableName, fields) == FieldKeyNames(tableName, fields[1..]);
        FieldsKeyTraceAsks(prefix, tableName, fields[1..], c);
      case Some(op) =>
        assert FieldKeyNames(tableName, fields) == {op.fkName} + FieldKeyNames(tableName, fields[1..]);
        var next := if op.fkName in c.constraints then c else Apply(c, op);
        var head := if op.fkName in c.constraints then [Ask(HasConstraint(op.fkName))]
                    else [Ask(HasConstraint(op.fkName)), Issue(op)];
        var rest := FieldsKeyTrace(prefix, tableName, fields[1..], next);
        assert FieldsKeyTrace(prefix, tableName, fields, c) == head + rest;
        FieldsKeyTraceAsks(prefix, tableName, fields[1..], next);
        assert forall s :: s in head + rest <==> s in head || s in rest;
        assert AskedConstraints(head + rest) == {op.fkName} + AskedConstraints(rest);
    }
  }

  /** Pass 2 asks about exactly the schema's `belongsTo` constraint names, and about no table. */
  lemma {:induction false} KeyTraceAsks(prefix: string, tables: seq<TableSpec>, c: Catalog)
    ensures AskedConstraints(KeyTrace(prefix, tables, c)) == ForeignKeyNames(prefix, tables)
    ensures forall s :: s in KeyTrace(prefix, tables, c) && s.Ask? ==> s.query.HasConstraint?
    decreases |tables|
  {
    if tables != [] {
      var t := tables[0];
      var tableName := TableName(prefix, t.name);
      var here := FieldsKeyTrace(prefix, tableName, t.fields, c);
      var rest := KeyTrace(prefix, tables[1..], ApplyAll(c, Issued(here)));
      FieldsKeyTraceAsks(prefix, tableName, t.fields, c);
      KeyTraceAsks(prefix, tables[1..], ApplyAll(c, Issued(here)));
      assert ForeignKeyNames(prefix, tables) == FieldKeyNames(tableName, t.fields) + ForeignKeyNames(prefix, tables[1..]) by {
        assert forall u :: u in tables <==> u == t || u in tables[1..];
      }
      assert forall s :: s in here + rest <==> s in here || s in rest;
      assert AskedConstraints(here + rest) == AskedConstraints(here) + AskedConstraints(rest);
    }
  }

  /** In pass 1 every create comes straight after the `hasTable` query for its name. */
  lemma {:induction false} CreateTraceGuarded(prefix: string, tables: seq<TableSpec>, c: Catalog)
    ensures Guarded(CreateTrace(prefix, tables, c))
    decreases |tables|
  {
    if tables != [] {
      var name := TableName(prefix, tables[0].name);
      if name in c.tables {
        CreateTraceGuarded(prefix, tables[1..], c);
        GuardedAppend([Ask(HasTable(name))], CreateTrace(prefix, tables[1..], c));
      } else {
        var op := CreateOf(prefix, tables[0]);
        CreateTraceGuarded(prefix, tables[1..], Apply(c, op));
        GuardedAppend([Ask(HasTable(name)), Issue(op)], CreateTrace(prefix, tables[1..], Apply(c, op)));
      }
    }
  }

  /** In one table's pass 2 every foreign key comes straight after the query for its constraint name. */
  lemma {:induction false} FieldsKeyTraceGuarded(prefix: string, tableName: string, fields: seq<FieldSpec>, c: Catalog)
    ensures Guarded(FieldsKeyTrace(prefix, tableName, fields, c))
    decreases |fields|
  {
    if fields != [] {
      match ForeignKeyOf(prefix, tableName, fields[0])
      case None =>
        FieldsKeyTraceGuarded(prefix, tableName, fields[1..], c);
      case Some(op) =>
        var q := HasConstraint(op.fkName);
        if op.fkName in c.constraints {
          FieldsKeyTraceGuarded(prefix, tableName, fields[1..], c);
          GuardedAppend([Ask(q)], FieldsKeyTrace(prefix, tableName, fields[1..], c));
        } else {
          FieldsKeyTraceGuarded(prefix, tableName, fields[1..], Apply(c, op));
          GuardedAppend([Ask(q), Issue(op)], FieldsKeyTrace(prefix, tableName, fields[1..], Apply(c, op)));
        }
    }
  }

  lemma {:induction false} KeyTraceGuarded(prefix: string, tables: seq<TableSpec>, c: Catalog)
    ensures Guarded(KeyTrace(prefix, tables, c))
    decreases |tables|
  {
    if tables != [] {
      var tableName := TableName(prefix, tables[0].name);
      var here := FieldsKeyTrace(prefix, tableName, tables[0].fields, c);
      FieldsKeyTraceGuarded(prefix, tableName, tables[0].fields, c);
      KeyTraceGuarded(prefix, tables[1..], ApplyAll(c, Issued(here)));
      GuardedAppend(here, KeyTrace(prefix, tables[1..], ApplyAll(c, Issued(here))));
    }
  }

  /** The route never issues DDL without first asking whether its name already exists. */
  lemma RouteTraceGuarded(slug: string, tables: seq<TableSpec>, c: Catalog)
    ensures Guarded(RouteTrace(slug, tables, c))
  {
    var prefix := Underscored(slug);
    var creates := CreateTrace(prefix, tables, c);
    CreateTraceGuarded(prefix, tables, c);
    KeyTraceGuarded(prefix, tables, ApplyAll(c, Issued(creates)));
    GuardedAppend(creates, KeyTrace(prefix, tables, ApplyAll(c, Issued(creates))));
  }
}
